=== FILE: README.md ===
# Foodgram core in Dafny

A model of the write paths and the shopping-list report of Foodgram, a
recipe-sharing web service (Django REST Framework). Users publish recipes
made of catalogue ingredients with amounts and tags. They keep favourites
and a shopping cart, and they subscribe to other authors.

The database is one immutable value, `Models.Store`:

- recipes, ingredients and tags are maps keyed by id;
- users and the recipe–tag pairs are sets;
- recipe ingredients, favourites, cart entries and follows are sequences of
  rows in primary-key order.

`Models.Valid` is the schema's invariant:

- foreign keys resolve;
- cooking times and amounts are at least 1;
- tag names, colours and slugs are unique;
- the `unique_ingredients_recipes`, `unique_favorite`, `unique_shopping_cart`
  and `unique_follow` constraints hold.

The `Models.Delete*` functions give the foreign keys' cascades.

The write handlers (create, update, add to or remove from a list,
subscribe, unsubscribe) are pure functions from a store and a request to a
`Results.Result`:

- `Ok` holds the new store.
- `Err` holds the failure: a validation error or a conflict (400), a missing
  record (404), or an uncaught exception (500).

An `Err` leaves the store as it was. This is the atomic transaction's
rollback, since the caller keeps the old store. The one exception in the
code is the subscribe POST, which can fail with a 500 after it has saved
the follow row (see `Views.Subscribe` under "## Left out"). The actions that dispatch on
the HTTP method return an `Option` of such a result, `None` for a method
they do not serve. The shopping-list download only reads the store and
returns the grouped totals and the report text. The author's recipe listing
returns a sequence of recipe summaries or an error.

Modules:

- `Seqs` — filtering, removal, uniqueness of table rows.
- `Results` — failures, HTTP statuses, POST/DELETE dispatch.
- `Models` — records, the schema invariant, cascades.
- `Serializers` — recipe validation, create, update (intended and as
  written), the author's recipe list and count shown with a subscription.
- `Mixins` — adding and removing a recipe on the favourites or cart list.
- `Views` — list and subscribe actions, the shopping-list download.
- `Filters` — the `is_favorited` / `is_in_shopping_cart` filters.
- `Decimal` — how an integer total is printed in the report.

Three points of the code fix the order of checks and the reach of the
cascades:

- **Validation order.** `validate_cooking_time`
  (backend/api/serializers.py:150-153) is a field validator. DRF runs it
  while it deserialises the fields, before the object-level `validate`
  (backend/api/serializers.py:117-148), so a bad cooking time is reported
  before any ingredient or tag error.
- **Subscribe order.** The subscribe action (backend/api/views.py:100-112)
  looks for an existing follow row first and answers "already subscribed";
  only then does it refuse a subscription to oneself. Either way a
  self-subscription is refused with a 400.
- **Deleting an ingredient or tag.** The foreign keys with
  `on_delete=CASCADE` that point at a tag or an ingredient sit on the join
  models RecipeTag and RecipeIngredient (backend/recipes/models.py:122-126
  and 147-152). Deleting a tag or an ingredient therefore removes only those
  join rows; the recipes stay.

## Model

| member | source | states |
|---|---|---|
| Serializers.ValidateAcceptsExactly | backend/api/serializers.py:117-154 | a payload passes validation exactly when its cooking time is at least 1, its ingredient list is non-empty with existing, pairwise distinct ids and amounts of at least 1, and its tag list is non-empty with existing, distinct ids |
| Serializers.ValidationOrder | backend/api/serializers.py:117-154 | a cooking time below 1 is reported before anything else, then an empty ingredient list, and an empty tag list only once every ingredient line is fine |
| Serializers.IngredientLinesCheckedInOrder | backend/api/serializers.py:118-132 | at the first bad ingredient line, an unknown id is a 404, an id repeated from an earlier line is the duplicate error whatever the amounts, and otherwise an amount of 0 or less is the amount error |
| Serializers.TagsCheckedInOrder | backend/api/serializers.py:135-146 | at the first bad tag, an unknown id is a 404 and a repeated id is the duplicate-tag error |
| Serializers.Create | backend/api/serializers.py:156-174 | create succeeds exactly when validation passes and otherwise fails with the validation's error; on success it adds one recipe under the next id with the acting user as author, keeps every existing row, and leaves users, catalogues and lists unchanged |
| Serializers.CreateStoresSubmission | backend/api/serializers.py:156-174 | after create, the new recipe's ingredient rows are exactly the submitted (id, amount) pairs, its tags exactly the submitted tags, and no other recipe's ingredients or tags change |
| Serializers.CreatePreservesValid | backend/api/serializers.py:156-174 | create keeps every schema constraint, including the unique (recipe, ingredient) pair |
| Serializers.Update | backend/api/serializers.py:176-199 | a missing recipe is a 404; otherwise update succeeds exactly when validation passes; on success it overwrites name, text, image and cooking time, keeps author and publication date, and changes no other recipe or table |
| Serializers.UpdateReplacesJoinRows | backend/api/serializers.py:176-199 | after update, the recipe's ingredient rows are exactly the submitted pairs (an ingredient not resubmitted keeps no row) and its tags exactly the submitted tags; rows of other recipes are untouched |
| Serializers.UpdatePreservesValid | backend/api/serializers.py:176-199 | update keeps every schema constraint |
| Serializers.ResolveField | backend/recipes/models.py:139-160 | a lookup keyword on RecipeIngredient resolves exactly when it is `pk`, the name of one of its declared fields (`id`, `recipe_id`, `ingredient`, `amount`), or the column attribute of one (a foreign key's name followed by `_id`); any other keyword is an uncaught error (500) |
| Serializers.RecipeKeywordUnresolved | backend/recipes/models.py:139-160 | `recipe` names no field or column attribute of RecipeIngredient and fails to resolve, while `recipe_id`, `recipe_id_id`, `ingredient_id` and `pk` resolve |
| Serializers.UpdateAsWritten | backend/api/serializers.py:176-199 | the update as the code writes it: a missing recipe is a 404, a validation failure is the intended one, and every other outcome is a server error |
| Serializers.UpdateAsWrittenNeverCommits | backend/api/serializers.py:186-197 | the update as written never succeeds: whenever the intended update would succeed it answers with a server error instead |
| Serializers.RecipesCountMatchesListing | backend/api/serializers.py:249-250 | `recipes_count` equals the number of recipes in the author's listing |
| Serializers.GetRecipes | backend/api/serializers.py:237-243 | a negative `recipes_limit` is a server error; otherwise the result is the author's recipes newest first, all of them when no limit is given and the first min(limit, count) when one is (a limit of 0 gives none), each entry a recipe by that author with that recipe's name, image and cooking time |
| Serializers.Summarize | backend/api/serializers.py:237-243 | the summaries list the given recipes in order, each with that recipe's id, name, image and cooking time |
| Mixins.AddToList | backend/api/mixins.py:12-21 | a missing recipe is a 404; adding fails with "already on the list" exactly when the pair is listed; otherwise exactly one (user, recipe) row is added and nothing else changes |
| Mixins.RemoveFromList | backend/api/mixins.py:23-31 | a missing recipe is a 404; removal succeeds exactly when the pair is listed, then deletes every row of the pair and keeps every other row as many times as it occurred; otherwise it fails with "not on the list" |
| Mixins.AddThenRemoveRestores | backend/api/mixins.py:12-31 | removing what was just added gives back the original store |
| Mixins.RemoveThenAddRestores | backend/api/mixins.py:12-31 | when the list table keeps its unique (user, recipe) constraint, adding back what was just removed succeeds and restores the list's rows |
| Mixins.AddTwiceConflicts | backend/api/mixins.py:14-18 | a second add of the same pair is refused as already listed |
| Mixins.RemoveTwiceConflicts | backend/api/mixins.py:25-31 | a second remove of the same pair is refused as not listed |
| Mixins.AddPreservesValid | backend/api/mixins.py:12-21 | adding keeps the schema constraints, in particular the unique (user, recipe) pair of the list table |
| Mixins.RemovePreservesValid | backend/api/mixins.py:23-31 | removing keeps the schema constraints |
| Results.Dispatch | backend/api/views.py:32-37 | POST and DELETE select the add and the remove handler; any other method yields no response |
| Views.ListAction | backend/api/views.py:32-56 | the favourite and shopping-cart actions: POST adds, DELETE removes, other methods give no response |
| Results.Status | backend/api/mixins.py:12-31 | a success answers with the action's own status, a missing record with 404, a validation error or conflict with 400, an uncaught exception with 500 |
| Views.ListActionStatus | backend/api/mixins.py:12-31 | a missing recipe answers 404; POST answers 201 exactly when the recipe was not listed and 400 exactly when it was; DELETE answers 204 exactly when it was listed and 400 exactly when it was not |
| Views.Subscribe | backend/api/views.py:97-116 | a missing author is a 404; an existing subscription is refused first, then a subscription to oneself; subscribing succeeds exactly when neither holds, adds exactly one follow row and changes nothing else |
| Views.Unsubscribe | backend/api/views.py:118-128 | a missing author is a 404; unsubscribing succeeds exactly when the subscription exists, deletes every row of it and keeps every other follow row as many times as it occurred; otherwise it fails with "not subscribed" |
| Views.SubscribeAction | backend/api/views.py:97-129 | POST subscribes, DELETE unsubscribes, other methods give no response |
| Views.SubscribeNeverFollowsSelf | backend/api/views.py:100-112 | subscribing to oneself always fails with a 400 whatever follow rows exist, and no subscription creates a self-follow |
| Views.SubscribeThenUnsubscribeRestores | backend/api/views.py:97-128 | unsubscribing right after subscribing gives back the original store |
| Views.UnsubscribeThenSubscribeRestores | backend/api/views.py:97-128 | in a valid store, when the user and the author differ, subscribing again after unsubscribing succeeds and restores the follow rows |
| Views.SubscriptionsPreserveValid | backend/api/views.py:97-128 | subscribing and unsubscribing keep the schema constraints, including the unique (user, author) pair |
| Views.TallyCart | backend/api/views.py:63-66 | the grouped query has a group for exactly the (name, unit) pairs some cart-joined ingredient row produces, each holding the sum of amount times join multiplicity over that group's rows |
| Views.RenderGroups | backend/api/views.py:67-72 | every group is written once, with its key's total, and the text is the header followed by one line per written group |
| Views.Report | backend/api/views.py:67-72 | the report starts with the header and is exactly the header when there are no groups |
| Views.DownloadShoppingCart | backend/api/views.py:61-76 | the shopping list has one line per (name, unit) group with the summed amount, a group for every ingredient row of a recipe in the user's cart, no group twice, and only the header when the user's cart is empty |
| Views.TotalsAreCartSums | backend/api/views.py:63-66 | in a valid store each group total is the plain sum of the amounts of the user's cart recipes' ingredient rows in that group, because the cart never holds a (user, recipe) pair twice |
| Views.GroupTotalsPositive | backend/api/views.py:63-66 | with amounts of at least 1 every group that appears has a total of at least 1 |
| Views.ValidStoreTotalsPositive | backend/api/views.py:63-66 | in a valid store every listed total is at least 1 |
| Decimal.IntToDecimal | backend/api/views.py:69-72 | the printed total is a minus sign exactly for negative numbers, followed by digits with no leading zero |
| Decimal.DecimalRoundTrip | backend/api/views.py:69-72 | reading back a printed total gives the number, so different totals print differently |
| Filters.FilterByList | backend/api/filters.py:19-27 | with a true value and a signed-in user the queryset keeps exactly the recipes on that user's list, in order; otherwise it is unchanged |
| Filters.FilterByListMultiplicity | backend/api/filters.py:19-27 | with a true value and a signed-in user each recipe on the user's list keeps as many occurrences as the queryset had, and every other recipe has none |
| Filters.FilterByListIdempotent | backend/api/filters.py:19-27 | applying the filter twice gives the same result as once |
| Filters.ListFiltersCommute | backend/api/filters.py:19-27 | the favourites and cart filters select the same recipes in the same order whichever runs first |
| Filters.FilterByListKeepsDistinct | backend/api/filters.py:19-27 | filtering a queryset without repeats gives one without repeats |
| Models.DeleteRecipe | backend/recipes/models.py:120-228 | deleting a recipe removes it with its ingredient, tag, favourite and cart rows, keeps every other row, and leaves users, follows and catalogues alone |
| Models.DeleteRecipePreservesValid | backend/recipes/models.py:120-228 | the recipe cascade keeps the schema constraints |
| Models.DeleteIngredient | backend/recipes/models.py:147-152 | deleting an ingredient removes it and the join rows that use it; every other ingredient, recipe and join row stays as it was, and users, tags, favourites, cart and follows are unchanged |
| Models.DeleteIngredientPreservesValid | backend/recipes/models.py:147-152 | the ingredient cascade keeps the schema constraints |
| Models.DeleteTag | backend/recipes/models.py:122-126 | deleting a tag removes it and its recipe–tag pairs; every other tag, recipe and pair stays as it was, and users, ingredients, recipe ingredients, favourites, cart and follows are unchanged |
| Models.DeleteTagPreservesValid | backend/recipes/models.py:122-126 | the tag cascade keeps the schema constraints |
| Models.DeleteUser | backend/recipes/models.py:65-249 | deleting a user removes their recipes with those recipes' rows, their own favourite and cart rows, and every follow row on either side; every other row of every table remains, and tags and ingredients are unchanged |
| Models.DeleteUserPreservesValid | backend/recipes/models.py:65-249 | the user cascade keeps the schema constraints |

## Left out

- Partial update (PATCH). Missing fields become `None` in the source; here every update carries a full payload.
- The 32767 upper bound of the small-integer columns for cooking time and amount. Integers here are unbounded, and only the lower bound of 1 is checked. For the cooking time the bound belongs to the serializer's integer field, so exceeding it would be a 400.
- Malformed payloads. An ingredient line without `id` or `amount` raises a key error (backend/api/serializers.py:124-125 and 130), an `ingredients` or `tags` value that is not a list fails when iterated; each is an uncaught 500. A missing, null or non-integer `cooking_time` is instead refused with a 400 by the required integer field that the serializer derives from the model column (backend/recipes/models.py:102-108), before `validate_cooking_time` runs. Here a payload always has a list of (id, amount) lines, a list of tag ids and an integer cooking time.
- `int()` on non-numeric input for an ingredient amount (backend/api/serializers.py:130) or a tag id (backend/api/serializers.py:141). These raise an uncaught 500. The payload's numbers are integers already, so that parse error is not modelled.
- Other per-field validation: name length, required scalar fields, and decoding of the embedded image. The image is an uninterpreted reference.
- Authentication, permissions (author-only edits, signed-in actions) and pagination. The acting user is a parameter.
- Response bodies: the recipe summary after adding to a list, the subscription body, and the read-only flags `is_favorited`, `is_in_shopping_cart` and `is_subscribed`. Only statuses and store changes are modelled; the one store change a body can leave behind, on subscribe, is named on the `Views.Subscribe` line.
- Views.DownloadShoppingCart: `str.capitalize` is a parameter, because case mapping is Unicode data outside the model. The order of the lines is left open, because the grouped query fixes none. The response headers (content type, attachment name) are not modelled.
- Serializers.GetRecipes: the author's recipes, newest first, come in as a parameter that is checked against the store. The order among recipes with equal publication times is the database's. The `recipes_limit` parameter is an optional integer here. A non-numeric value makes `int()` raise (backend/api/serializers.py:241-242), an uncaught 500 that the model cannot express.
- Views.Subscribe: the success case (201) covers only the store change, not the response body. The code saves the follow row (backend/api/views.py:113) and then builds the body through the follow serializer (backend/api/views.py:114-116), whose recipe listing reads `recipes_limit` (backend/api/serializers.py:237-243). The action runs in no transaction, so with a negative or non-numeric `recipes_limit` the request answers 500 and the new follow row stays saved. The model answers `Ok` with that row for this input.
- Serializers.Create: the source stores ingredient rows with get-or-create. Validation has already ruled out repeated ids, so this is a plain insert here. The tags are stored as a set, without the descending-id order of the RecipeTag table.
- Filters.FilterByList: the queryset join could list a recipe twice if a list held two rows for one (user, recipe) pair. The unique constraint rules that out, so the model filters instead of joining. The `author` and `tags` filters are not part of this model.
- Concurrency: two simultaneous adds of the same pair are settled by the database's unique constraint, not by the model.

## Findings

| source | as written | input that shows it | evidently intended | confidence | as-written member | corrected member |
|---|---|---|---|---|---|---|
| backend/api/serializers.py:186-197 | the old ingredient rows are looked up with the keyword `recipe`, and the new rows are built with `recipe=` and a bare ingredient id, but RecipeIngredient's foreign key is named `recipe_id`; the lookup raises, the atomic block rolls back and the request answers 500 | a PUT to an existing recipe with a valid payload, e.g. cooking time 10, ingredients [{id: 1, amount: 2}] and tags [1] with ingredient 1 and tag 1 in the catalogue | delete the recipe's ingredient rows and insert the submitted ones, replacing the join set | high, not executed | Serializers.UpdateAsWritten, Serializers.UpdateAsWrittenNeverCommits | Serializers.Update, Serializers.UpdateReplacesJoinRows |

=== FILE: decimal.dfy ===
/** Decimal rendering of integers, as Python's `str` of an `int` writes them:
    an optional minus sign followed by digits without leading zeros. */
module Decimal {

  predicate IsDigit(c: char) {
    '0' <= c <= '9'
  }

  predicate AllDigits(r: string) {
    forall i :: 0 <= i < |r| ==> IsDigit(r[i])
  }

  function DigitChar(d: int): (c: char)
    requires 0 <= d < 10
    ensures IsDigit(c)
    ensures c as int - '0' as int == d
  {
    ('0' as int + d) as char
  }

  function DigitValue(c: char): (d: int)
    requires IsDigit(c)
    ensures 0 <= d < 10
  {
    c as int - '0' as int
  }

  /** The digits of `n`, most significant first. */
  function NatToDecimal(n: nat): (r: string)
    ensures |r| >= 1 && AllDigits(r)
    ensures |r| > 1 ==> r[0] != '0'
    ensures n == 0 <==> r == "0"
  {
    if n < 10 then [DigitChar(n)]
    else
      var front := NatToDecimal(n / 10);
      assert front != "0";
      front + [DigitChar(n % 10)]
  }

  /** The value of a string of digits. */
  function ParseDigits(r: string): nat
    requires AllDigits(r)
  {
    if r == [] then 0 else ParseDigits(r[..|r| - 1]) * 10 + DigitValue(r[|r| - 1])
  }

  /** Python's `str(n)`. */
  function IntToDecimal(n: int): (r: string)
    ensures |r| >= 1
    ensures n >= 0 <==> IsDigit(r[0])
    ensures n < 0 <==> r[0] == '-'
    ensures n >= 0 ==> AllDigits(r)
    ensures n >= 0 && |r| > 1 ==> r[0] != '0'
    ensures n < 0 ==> |r| >= 2 && AllDigits(r[1..]) && r[1] != '0'
  {
    if n < 0 then "-" + NatToDecimal(-n) else NatToDecimal(n)
  }

  /** Reading back a rendered integer. */
  function ParseDecimal(r: string): (n: int)
    requires |r| >= 1
    requires AllDigits(r) || (r[0] == '-' && AllDigits(r[1..]))
  {
    var magnitude: int := if r[0] == '-' then ParseDigits(r[1..]) else ParseDigits(r);
    if r[0] == '-' then -magnitude else magnitude
  }

  lemma {:induction false} NatRoundTrip(n: nat)
    ensures ParseDigits(NatToDecimal(n)) == n
    decreases n
  {
    if n >= 10 {
      NatRoundTrip(n / 10);
      var r := NatToDecimal(n);
      assert r[..|r| - 1] == NatToDecimal(n / 10);
    }
  }

  /** Rendering then parsing gives back the number, so distinct amounts are
      never printed alike. */
  lemma DecimalRoundTrip(n: int)
    ensures ParseDecimal(IntToDecimal(n)) == n
  {
    if n < 0 {
      NatRoundTrip(-n);
      assert IntToDecimal(n)[1..] == NatToDecimal(-n);
    } else {
      NatRoundTrip(n);
    }
  }

  lemma DecimalInjective(a: int, b: int)
    requires IntToDecimal(a) == IntToDecimal(b)
    ensures a == b
  {
    DecimalRoundTrip(a);
    DecimalRoundTrip(b);
  }
}

=== FILE: filters.dfy ===
/** The boolean query parameters of the recipe list that narrow it to the
    requesting user's favourites or shopping cart. */
module Filters {
  import opened Seqs
  import opened Results
  import opened Models

  /** Membership of a recipe in `user`'s list of the given kind, as a
      queryset condition. */
  function OnList(s: Store, kind: ListKind, user: UserId): RecipeId -> bool {
    (id: RecipeId) => ListEntry(user, id) in Rows(s, kind)
  }

  /** The `is_favorited` / `is_in_shopping_cart` filter over a queryset of
      recipe ids. `user` is `None` for an anonymous request; then, as for a
      false value, the queryset passes unchanged. */
  function FilterByList(s: Store, kind: ListKind, qs: seq<RecipeId>, value: bool, user: Option<UserId>): (r: seq<RecipeId>)
    ensures !value || user.None? ==> r == qs
    ensures value && user.Some? ==>
      && (forall id | id in r :: id in qs && ListEntry(user.value, id) in Rows(s, kind))
      && (forall id | id in qs && ListEntry(user.value, id) in Rows(s, kind) :: id in r)
    ensures IsSubsequence(r, qs)
  {
    if value && user.Some? then
      Filter(qs, OnList(s, kind, user.value))
    else
      SubsequenceOfSelf(qs);
      qs
  }

  /** The filter keeps each listed recipe as often as the queryset holds it
      and drops every other recipe entirely. */
  lemma FilterByListMultiplicity(s: Store, kind: ListKind, qs: seq<RecipeId>, value: bool, user: Option<UserId>, id: RecipeId)
    ensures value && user.Some? ==>
      multiset(FilterByList(s, kind, qs, value, user))[id]
        == if ListEntry(user.value, id) in Rows(s, kind) then multiset(qs)[id] else 0
  {
    if value && user.Some? {
      FilterMultiplicity(qs, OnList(s, kind, user.value), id);
    }
  }

  /** Applying the filter again changes nothing. */
  lemma FilterByListIdempotent(s: Store, kind: ListKind, qs: seq<RecipeId>, value: bool, user: Option<UserId>)
    ensures FilterByList(s, kind, FilterByList(s, kind, qs, value, user), value, user) == FilterByList(s, kind, qs, value, user)
  {
    if value && user.Some? {
      FilterIdempotent(qs, OnList(s, kind, user.value));
    }
  }

  /** Both list filters together select the same recipes, in the same order,
      whichever is applied first. */
  lemma ListFiltersCommute(s: Store, qs: seq<RecipeId>, favorited: bool, inCart: bool, user: Option<UserId>)
    ensures FilterByList(s, ShoppingCartList, FilterByList(s, FavoritesList, qs, favorited, user), inCart, user)
         == FilterByList(s, FavoritesList, FilterByList(s, ShoppingCartList, qs, inCart, user), favorited, user)
  {
    if favorited && inCart && user.Some? {
      FilterCommutes(qs, OnList(s, FavoritesList, user.value), OnList(s, ShoppingCartList, user.value));
    }
  }

  /** A queryset without repeated recipes stays so after filtering. */
  lemma FilterByListKeepsDistinct(s: Store, kind: ListKind, qs: seq<RecipeId>, value: bool, user: Option<UserId>)
    requires NoDuplicates(qs)
    ensures NoDuplicates(FilterByList(s, kind, qs, value, user))
  {
    if value && user.Some? {
      FilterKeepsNoDuplicates(qs, OnList(s, kind, user.value));
    }
  }
}

=== FILE: mixins.dfy ===
/** The shared add/remove logic behind the favourites and shopping-cart
    actions: one (user, recipe) row in the chosen list table. */
module Mixins {
  import opened Seqs
  import opened Results
  import opened Models

  /** `recipe` is on `user`'s list of the given kind. */
  predicate Listed(s: Store, kind: ListKind, user: UserId, recipe: RecipeId) {
    ListEntry(user, recipe) in Rows(s, kind)
  }

  /** Adding a recipe to a list: the recipe must exist (404), must not be on
      the list yet (400), and then exactly one row is inserted (201). No
      other table changes. */
  function AddToList(s: Store, kind: ListKind, user: UserId, recipe: RecipeId): (r: Result<Store>)
    ensures recipe !in s.recipes ==> r == Err(NotFound(RecipeRecord))
    ensures recipe in s.recipes ==> (r.Err? <==> Listed(s, kind, user, recipe))
    ensures recipe in s.recipes && r.Err? ==> r.failure == Conflict(AlreadyInList)
    ensures r.Ok? ==> Listed(r.value, kind, user, recipe)
    ensures r.Ok? ==> multiset(Rows(r.value, kind)) == multiset(Rows(s, kind)) + multiset{ListEntry(user, recipe)}
    ensures r.Ok? ==> WithRows(r.value, kind, Rows(s, kind)) == s
  {
    if recipe !in s.recipes then Err(NotFound(RecipeRecord))
    else if Listed(s, kind, user, recipe) then Err(Conflict(AlreadyInList))
    else Ok(WithRows(s, kind, Rows(s, kind) + [ListEntry(user, recipe)]))
  }

  /** Removing a recipe from a list: the recipe must exist (404); if rows
      for (user, recipe) exist they are all deleted (204), otherwise 400.
      No other row and no other table changes. */
  function RemoveFromList(s: Store, kind: ListKind, user: UserId, recipe: RecipeId): (r: Result<Store>)
    ensures recipe !in s.recipes ==> r == Err(NotFound(RecipeRecord))
    ensures recipe in s.recipes ==> (r.Ok? <==> Listed(s, kind, user, recipe))
    ensures recipe in s.recipes && r.Err? ==> r.failure == Conflict(NotInList)
    ensures r.Ok? ==> !Listed(r.value, kind, user, recipe)
    ensures r.Ok? ==> forall e | e in Rows(s, kind) && e != ListEntry(user, recipe) :: e in Rows(r.value, kind)
    ensures r.Ok? ==> forall e | e in Rows(r.value, kind) :: e in Rows(s, kind)
    ensures r.Ok? ==> multiset(Rows(r.value, kind)) == multiset(Rows(s, kind))[ListEntry(user, recipe) := 0]
    ensures r.Ok? ==> WithRows(r.value, kind, Rows(s, kind)) == s
  {
    if recipe !in s.recipes then Err(NotFound(RecipeRecord))
    else if Listed(s, kind, user, recipe) then Ok(WithRows(s, kind, Without(Rows(s, kind), ListEntry(user, recipe))))
    else Err(Conflict(NotInList))
  }

  /** Removing what was just added gives back the store exactly. */
  lemma AddThenRemoveRestores(s: Store, kind: ListKind, user: UserId, recipe: RecipeId)
    requires AddToList(s, kind, user, recipe).Ok?
    ensures RemoveFromList(AddToList(s, kind, user, recipe).value, kind, user, recipe) == Ok(s)
  {
    var entry := ListEntry(user, recipe);
    var added := AddToList(s, kind, user, recipe).value;
    assert Rows(added, kind) == Rows(s, kind) + [entry];
    AppendThenWithout(Rows(s, kind), entry);
    assert WithRows(added, kind, Rows(s, kind)) == s;
  }

  /** Adding back what was just removed restores the list's contents (the
      row moves to the end: the table is ordered by primary key). Only the
      list's unique (user, recipe) constraint is needed. */
  lemma RemoveThenAddRestores(s: Store, kind: ListKind, user: UserId, recipe: RecipeId)
    requires NoDuplicates(Rows(s, kind))
    requires RemoveFromList(s, kind, user, recipe).Ok?
    ensures AddToList(RemoveFromList(s, kind, user, recipe).value, kind, user, recipe).Ok?
    ensures multiset(Rows(AddToList(RemoveFromList(s, kind, user, recipe).value, kind, user, recipe).value, kind))
            == multiset(Rows(s, kind))
  {
    var entry := ListEntry(user, recipe);
    NoDuplicatesCountsAtMostOne(Rows(s, kind), entry);
    var removed := RemoveFromList(s, kind, user, recipe).value;
    assert multiset(Rows(removed, kind)) == multiset(Rows(s, kind))[entry := 0];
  }

  /** A second add of the same recipe is rejected. */
  lemma AddTwiceConflicts(s: Store, kind: ListKind, user: UserId, recipe: RecipeId)
    requires AddToList(s, kind, user, recipe).Ok?
    ensures AddToList(AddToList(s, kind, user, recipe).value, kind, user, recipe) == Err(Conflict(AlreadyInList))
  {
  }

  /** A second remove of the same recipe is rejected. */
  lemma RemoveTwiceConflicts(s: Store, kind: ListKind, user: UserId, recipe: RecipeId)
    requires RemoveFromList(s, kind, user, recipe).Ok?
    ensures RemoveFromList(RemoveFromList(s, kind, user, recipe).value, kind, user, recipe) == Err(Conflict(NotInList))
  {
  }

  /** Adding keeps the schema invariant (in particular the unique
      (user, recipe) constraint) when the acting user exists. */
  lemma AddPreservesValid(s: Store, kind: ListKind, user: UserId, recipe: RecipeId)
    requires Valid(s) && user in s.users
    requires AddToList(s, kind, user, recipe).Ok?
    ensures Valid(AddToList(s, kind, user, recipe).value)
  {
    AppendKeepsNoDuplicates(Rows(s, kind), ListEntry(user, recipe));
  }

  /** Removing keeps the schema invariant. */
  lemma RemovePreservesValid(s: Store, kind: ListKind, user: UserId, recipe: RecipeId)
    requires Valid(s)
    requires RemoveFromList(s, kind, user, recipe).Ok?
    ensures Valid(RemoveFromList(s, kind, user, recipe).value)
  {
    WithoutKeepsNoDuplicates(Rows(s, kind), ListEntry(user, recipe));
  }
}

=== FILE: models.dfy ===
/** The record shapes of the recipe store, the constraints the schema puts on
    them, and the cascades its foreign keys perform on delete. */
module Models {
  import opened Seqs

  type UserId = nat
  type RecipeId = nat
  type IngredientId = nat
  type TagId = nat

  /** A tag: name, colour and slug are each unique across all tags. */
  datatype Tag = Tag(name: string, color: string, slug: string)

  /** A catalogue ingredient; the pair (name, unit) is not unique. */
  datatype Ingredient = Ingredient(name: string, measurementUnit: string)

  /** The stored picture of a recipe, kept as an uninterpreted reference. */
  datatype Image = NoImage | StoredImage(reference: string)

  datatype Recipe = Recipe(
    author: UserId,
    name: string,
    image: Image,
    text: string,
    cookingTime: int,
    pubDate: int)

  /** Join row between a recipe and an ingredient, carrying the amount. */
  datatype RecipeIngredient = RecipeIngredient(recipe: RecipeId, ingredient: IngredientId, amount: int)

  /** Join row between a recipe and a tag. */
  datatype RecipeTag = RecipeTag(recipe: RecipeId, tag: TagId)

  /** A row of the Favorites or the ShoppingCart table. */
  datatype ListEntry = ListEntry(user: UserId, recipe: RecipeId)

  /** A row of the Follow table: `user` subscribes to `author`. */
  datatype Follow = Follow(user: UserId, author: UserId)

  /** The database. Tables whose rows can repeat unless a constraint forbids it
      are sequences in primary-key order; `nextRecipeId` is the recipe table's
      auto-increment counter. */
  datatype Store = Store(
    users: set<UserId>,
    tags: map<TagId, Tag>,
    ingredients: map<IngredientId, Ingredient>,
    recipes: map<RecipeId, Recipe>,
    nextRecipeId: RecipeId,
    recipeIngredients: seq<RecipeIngredient>,
    recipeTags: set<RecipeTag>,
    favorites: seq<ListEntry>,
    shoppingCart: seq<ListEntry>,
    follows: seq<Follow>)

  /** The two per-user recipe lists that share one add/remove implementation. */
  datatype ListKind = FavoritesList | ShoppingCartList

  function Rows(s: Store, kind: ListKind): seq<ListEntry> {
    match kind
    case FavoritesList => s.favorites
    case ShoppingCartList => s.shoppingCart
  }

  function WithRows(s: Store, kind: ListKind, rows: seq<ListEntry>): (r: Store)
    ensures Rows(r, kind) == rows
  {
    match kind
    case FavoritesList => s.(favorites := rows)
    case ShoppingCartList => s.(shoppingCart := rows)
  }

  /** The columns of the `unique_ingredients_recipes` constraint. */
  function RowKey(row: RecipeIngredient): (RecipeId, IngredientId) {
    (row.recipe, row.ingredient)
  }

  predicate TagsDistinct(tags: map<TagId, Tag>) {
    forall a, b | a in tags && b in tags && a != b ::
      tags[a].name != tags[b].name && tags[a].color != tags[b].color && tags[a].slug != tags[b].slug
  }

  predicate RecipesValid(s: Store) {
    forall id | id in s.recipes ::
      id < s.nextRecipeId && s.recipes[id].author in s.users && s.recipes[id].cookingTime >= 1
  }

  predicate RecipeIngredientsValid(s: Store) {
    && (forall row | row in s.recipeIngredients ::
          row.recipe in s.recipes && row.ingredient in s.ingredients && row.amount >= 1)
    && UniqueBy(s.recipeIngredients, RowKey)
  }

  predicate RecipeTagsValid(s: Store) {
    forall t | t in s.recipeTags :: t.recipe in s.recipes && t.tag in s.tags
  }

  predicate ListValid(s: Store, rows: seq<ListEntry>) {
    && (forall e | e in rows :: e.user in s.users && e.recipe in s.recipes)
    && NoDuplicates(rows)
  }

  predicate FollowsValid(s: Store) {
    && (forall f | f in s.follows :: f.user in s.users && f.author in s.users)
    && NoDuplicates(s.follows)
  }

  /** The schema's invariant: foreign keys resolve, minimum values of 1 hold,
      and every uniqueness constraint is respected. */
  predicate Valid(s: Store) {
    && TagsDistinct(s.tags)
    && RecipesValid(s)
    && RecipeIngredientsValid(s)
    && RecipeTagsValid(s)
    && ListValid(s, s.favorites)
    && ListValid(s, s.shoppingCart)
    && FollowsValid(s)
  }

  /** Deleting a recipe: its ingredient, tag, favourite and cart rows go with it. */
  function DeleteRecipe(s: Store, id: RecipeId): (r: Store)
    ensures r.recipes.Keys == s.recipes.Keys - {id}
    ensures forall k | k in r.recipes :: r.recipes[k] == s.recipes[k]
    ensures forall row | row in r.recipeIngredients :: row.recipe != id
    ensures forall row | row in s.recipeIngredients && row.recipe != id :: row in r.recipeIngredients
    ensures forall row | row in r.recipeIngredients :: row in s.recipeIngredients
    ensures r.recipeTags == set t | t in s.recipeTags && t.recipe != id
    ensures forall e | e in r.favorites :: e.recipe != id && e in s.favorites
    ensures forall e | e in s.favorites && e.recipe != id :: e in r.favorites
    ensures forall e | e in r.shoppingCart :: e.recipe != id && e in s.shoppingCart
    ensures forall e | e in s.shoppingCart && e.recipe != id :: e in r.shoppingCart
    ensures r.users == s.users && r.follows == s.follows
    ensures r.tags == s.tags && r.ingredients == s.ingredients
  {
    s.(recipes := s.recipes - {id},
       recipeIngredients := Filter(s.recipeIngredients, (row: RecipeIngredient) => row.recipe != id),
       recipeTags := (set t | t in s.recipeTags && t.recipe != id),
       favorites := Filter(s.favorites, (e: ListEntry) => e.recipe != id),
       shoppingCart := Filter(s.shoppingCart, (e: ListEntry) => e.recipe != id))
  }

  lemma DeleteRecipePreservesValid(s: Store, id: RecipeId)
    requires Valid(s)
    ensures Valid(DeleteRecipe(s, id))
  {
    FilterKeepsUniqueBy(s.recipeIngredients, (row: RecipeIngredient) => row.recipe != id, RowKey);
    FilterKeepsNoDuplicates(s.favorites, (e: ListEntry) => e.recipe != id);
    FilterKeepsNoDuplicates(s.shoppingCart, (e: ListEntry) => e.recipe != id);
  }

  /** Deleting a catalogue ingredient removes the join rows that use it; the
      recipes themselves stay. */
  function DeleteIngredient(s: Store, id: IngredientId): (r: Store)
    ensures r.ingredients.Keys == s.ingredients.Keys - {id}
    ensures forall k | k in r.ingredients :: r.ingredients[k] == s.ingredients[k]
    ensures forall row | row in r.recipeIngredients :: row.ingredient != id && row in s.recipeIngredients
    ensures forall row | row in s.recipeIngredients && row.ingredient != id :: row in r.recipeIngredients
    ensures r.recipes == s.recipes && r.recipeTags == s.recipeTags
    ensures r.users == s.users && r.tags == s.tags && r.nextRecipeId == s.nextRecipeId
    ensures r.favorites == s.favorites && r.shoppingCart == s.shoppingCart && r.follows == s.follows
  {
    s.(ingredients := s.ingredients - {id},
       recipeIngredients := Filter(s.recipeIngredients, (row: RecipeIngredient) => row.ingredient != id))
  }

  lemma DeleteIngredientPreservesValid(s: Store, id: IngredientId)
    requires Valid(s)
    ensures Valid(DeleteIngredient(s, id))
  {
    FilterKeepsUniqueBy(s.recipeIngredients, (row: RecipeIngredient) => row.ingredient != id, RowKey);
  }

  /** Deleting a tag removes its join rows; the recipes stay. */
  function DeleteTag(s: Store, id: TagId): (r: Store)
    ensures r.tags.Keys == s.tags.Keys - {id}
    ensures forall k | k in r.tags :: r.tags[k] == s.tags[k]
    ensures r.recipeTags == set t | t in s.recipeTags && t.tag != id
    ensures r.recipes == s.recipes && r.recipeIngredients == s.recipeIngredients
    ensures r.users == s.users && r.ingredients == s.ingredients && r.nextRecipeId == s.nextRecipeId
    ensures r.favorites == s.favorites && r.shoppingCart == s.shoppingCart && r.follows == s.follows
  {
    s.(tags := s.tags - {id}, recipeTags := (set t | t in s.recipeTags && t.tag != id))
  }

  lemma DeleteTagPreservesValid(s: Store, id: TagId)
    requires Valid(s)
    ensures Valid(DeleteTag(s, id))
  {
  }

  /** Deleting a user: their recipes (with those recipes' join, favourite and
      cart rows), their own favourites and cart rows, and every follow row
      they take part in, on either side. */
  function DeleteUser(s: Store, u: UserId): (r: Store)
    ensures r.users == s.users - {u}
    ensures forall id | id in r.recipes :: id in s.recipes && r.recipes[id] == s.recipes[id] && r.recipes[id].author != u
    ensures forall id | id in s.recipes && s.recipes[id].author != u :: id in r.recipes
    ensures forall row | row in r.recipeIngredients :: row in s.recipeIngredients && row.recipe in r.recipes
    ensures forall row | row in s.recipeIngredients && row.recipe in r.recipes :: row in r.recipeIngredients
    ensures r.recipeTags == set t | t in s.recipeTags && t.recipe in r.recipes
    ensures forall e | e in r.favorites :: e in s.favorites && e.user != u && e.recipe in r.recipes
    ensures forall e | e in s.favorites && e.user != u && e.recipe in r.recipes :: e in r.favorites
    ensures forall e | e in r.shoppingCart :: e in s.shoppingCart && e.user != u && e.recipe in r.recipes
    ensures forall e | e in s.shoppingCart && e.user != u && e.recipe in r.recipes :: e in r.shoppingCart
    ensures r.tags == s.tags && r.ingredients == s.ingredients && r.nextRecipeId == s.nextRecipeId
    ensures forall f | f in r.follows :: f in s.follows && f.user != u && f.author != u
    ensures forall f | f in s.follows && f.user != u && f.author != u :: f in r.follows
  {
    var kept := map id | id in s.recipes && s.recipes[id].author != u :: s.recipes[id];
    s.(users := s.users - {u},
       recipes := kept,
       recipeIngredients := Filter(s.recipeIngredients, (row: RecipeIngredient) => row.recipe in kept),
       recipeTags := (set t | t in s.recipeTags && t.recipe in kept),
       favorites := Filter(s.favorites, (e: ListEntry) => e.user != u && e.recipe in kept),
       shoppingCart := Filter(s.shoppingCart, (e: ListEntry) => e.user != u && e.recipe in kept),
       follows := Filter(s.follows, (f: Follow) => f.user != u && f.author != u))
  }

  lemma DeleteUserPreservesValid(s: Store, u: UserId)
    requires Valid(s)
    ensures Valid(DeleteUser(s, u))
  {
    var r := DeleteUser(s, u);
    var kept := r.recipes;
    assert RecipesValid(r);
    assert RecipeIngredientsValid(r) by {
      FilterKeepsUniqueBy(s.recipeIngredients, (row: RecipeIngredient) => row.recipe in kept, RowKey);
    }
    assert RecipeTagsValid(r);
    assert ListValid(r, r.favorites) by {
      FilterKeepsNoDuplicates(s.favorites, (e: ListEntry) => e.user != u && e.recipe in kept);
    }
    assert ListValid(r, r.shoppingCart) by {
      FilterKeepsNoDuplicates(s.shoppingCart, (e: ListEntry) => e.user != u && e.recipe in kept);
    }
    assert FollowsValid(r) by {
      FilterKeepsNoDuplicates(s.follows, (f: Follow) => f.user != u && f.author != u);
    }
  }
}

=== FILE: results.dfy ===
/** Outcomes of the core's operations: the exceptions and error responses of
    the web layer become values, and each maps to the HTTP status it produces. */
module Results {

  datatype Option<+T> = None | Some(value: T)

  /** The kind of record a failed lookup (`get_object_or_404`) was after. */
  datatype Entity = UserRecord | RecipeRecord | IngredientRecord | TagRecord

  /** Reasons a recipe payload is rejected by the serializer's validation. */
  datatype Violation =
    | CookingTimeTooSmall
    | EmptyIngredients
    | DuplicateIngredient
    | NonPositiveAmount
    | EmptyTags
    | DuplicateTag

  /** The 400 responses of the favourites, cart and subscription actions. */
  datatype Clash =
    | AlreadyInList
    | NotInList
    | AlreadyFollowing
    | CannotFollowSelf
    | NotFollowing

  datatype Failure =
    | Invalid(violation: Violation)
    | NotFound(entity: Entity)
    | Conflict(clash: Clash)
    /** An exception nothing in the handler catches; the transaction rolls back. */
    | ServerError

  datatype Result<+T> = Ok(value: T) | Err(failure: Failure)

  /** Result of a check that produces nothing on success. */
  datatype Outcome = Pass | Fail(failure: Failure)

  const Created := 201
  const NoContent := 204
  const BadRequest := 400
  const NotFoundStatus := 404
  const InternalError := 500

  /** The HTTP status of a response: `success` when the operation went through,
      otherwise the status its failure is reported with. */
  function Status<T>(r: Result<T>, success: int): (code: int)
    ensures r.Ok? ==> code == success
    ensures r.Err? && (r.failure.Invalid? || r.failure.Conflict?) ==> code == BadRequest
    ensures r.Err? && r.failure.NotFound? ==> code == NotFoundStatus
    ensures r.Err? && r.failure.ServerError? ==> code == InternalError
  {
    match r
    case Ok(_) => success
    case Err(NotFound(_)) => NotFoundStatus
    case Err(ServerError) => InternalError
    case Err(_) => BadRequest
  }

  /** HTTP request methods as seen by a detail action. */
  datatype Method = Get | Post | Put | Patch | Delete

  /** Verb dispatch of an action that accepts POST and DELETE: any other
      method produces no response at all. */
  function Dispatch<T>(m: Method, onPost: T, onDelete: T): (r: Option<T>)
    ensures r.Some? <==> m == Post || m == Delete
    ensures m == Post ==> r == Some(onPost)
    ensures m == Delete ==> r == Some(onDelete)
  {
    match m
    case Post => Some(onPost)
    case Delete => Some(onDelete)
    case _ => None
  }
}

=== FILE: seqs.dfy ===
/** Sequence utilities shared by the store: database tables are kept as
    sequences of rows in primary-key order, and querysets as sequences of ids. */
module Seqs {

  /** The elements of `xs` that satisfy `keep`, in their original order
      (a queryset `.filter(...)` or a bulk `.delete()` of the complement). */
  function Filter<T>(xs: seq<T>, keep: T -> bool): (r: seq<T>)
    ensures |r| <= |xs|
    ensures forall x | x in r :: x in xs && keep(x)
    ensures forall x | x in xs && keep(x) :: x in r
    ensures IsSubsequence(r, xs)
  {
    if xs == [] then []
    else if keep(xs[0]) then [xs[0]] + Filter(xs[1..], keep)
    else
      var rest := Filter(xs[1..], keep);
      assert rest != [] ==> rest[0] in rest && rest[0] != xs[0];
      rest
  }

  /** Filtering keeps every kept element as often as it occurs and drops
      every other element entirely. */
  lemma {:induction false} FilterMultiplicity<T>(xs: seq<T>, keep: T -> bool, x: T)
    ensures multiset(Filter(xs, keep))[x] == if keep(x) then multiset(xs)[x] else 0
  {
    if xs != [] {
      FilterMultiplicity(xs[1..], keep, x);
      assert xs == [xs[0]] + xs[1..];
    }
  }

  /** `xs` with every occurrence of `y` removed. */
  function Without<T(==)>(xs: seq<T>, y: T): (r: seq<T>)
    ensures forall x | x in r :: x in xs && x != y
    ensures forall x | x in xs && x != y :: x in r
    ensures y !in xs ==> r == xs
    ensures multiset(r) == multiset(xs)[y := 0]
  {
    if xs == [] then []
    else
      assert xs == [xs[0]] + xs[1..];
      if xs[0] == y then Without(xs[1..], y)
      else [xs[0]] + Without(xs[1..], y)
  }

  /** `a` can be obtained from `b` by deleting elements: order is kept. */
  predicate IsSubsequence<T(==)>(a: seq<T>, b: seq<T>)
    decreases b
  {
    if a == [] then true
    else if b == [] then false
    else if a[0] == b[0] then IsSubsequence(a[1..], b[1..])
    else IsSubsequence(a, b[1..])
  }

  /** No two rows of `xs` share a key: a database uniqueness constraint. */
  predicate UniqueBy<T, K(==)>(xs: seq<T>, key: T -> K) {
    forall i, j :: 0 <= i < j < |xs| ==> key(xs[i]) != key(xs[j])
  }

  /** No row of `xs` occurs twice. */
  predicate NoDuplicates<T(==)>(xs: seq<T>) {
    forall i, j :: 0 <= i < j < |xs| ==> xs[i] != xs[j]
  }

  /** Dropping rows never breaks a uniqueness constraint. */
  lemma {:induction false} FilterKeepsUniqueBy<T, K>(xs: seq<T>, keep: T -> bool, key: T -> K)
    requires UniqueBy(xs, key)
    ensures UniqueBy(Filter(xs, keep), key)
    decreases |xs|
  {
    if xs != [] {
      var rest := Filter(xs[1..], keep);
      assert UniqueBy(xs[1..], key) by {
        forall i, j | 0 <= i < j < |xs[1..]|
          ensures key(xs[1..][i]) != key(xs[1..][j])
        {
          assert xs[1..][i] == xs[i + 1] && xs[1..][j] == xs[j + 1];
        }
      }
      FilterKeepsUniqueBy(xs[1..], keep, key);
      if keep(xs[0]) {
        var r := [xs[0]] + rest;
        forall i, j | 0 <= i < j < |r|
          ensures key(r[i]) != key(r[j])
        {
          if i == 0 {
            assert r[j] == rest[j - 1] && rest[j - 1] in xs[1..];
            var m :| 0 <= m < |xs[1..]| && xs[1..][m] == rest[j - 1];
            assert xs[m + 1] == r[j];
          } else {
            assert r[i] == rest[i - 1] && r[j] == rest[j - 1];
          }
        }
      }
    }
  }

  /** Dropping rows never introduces a duplicate. */
  lemma FilterKeepsNoDuplicates<T>(xs: seq<T>, keep: T -> bool)
    requires NoDuplicates(xs)
    ensures NoDuplicates(Filter(xs, keep))
  {
    assert UniqueBy(xs, (x: T) => x);
    FilterKeepsUniqueBy(xs, keep, (x: T) => x);
    var r := Filter(xs, keep);
    assert UniqueBy(r, (x: T) => x);
  }

  /** Removing one value never introduces a duplicate. */
  lemma WithoutKeepsNoDuplicates<T>(xs: seq<T>, y: T)
    requires NoDuplicates(xs)
    ensures NoDuplicates(Without(xs, y))
  {
    var r := Without(xs, y);
    forall i, j | 0 <= i < j < |r|
      ensures r[i] != r[j]
    {
      NoDuplicatesCountsAtMostOne(xs, r[i]);
      SingleOccurrenceDistinct(r, i, j);
    }
  }

  /** A value that occurs at most once cannot sit at two positions. */
  lemma SingleOccurrenceDistinct<T>(r: seq<T>, i: int, j: int)
    requires 0 <= i < j < |r|
    requires multiset(r)[r[i]] <= 1
    ensures r[i] != r[j]
  {
    assert r == r[..j] + [r[j]] + r[j + 1..];
    assert r[..j][i] == r[i];
    assert multiset(r[..j])[r[i]] >= 1;
    assert multiset(r)[r[j]] == multiset(r[..j])[r[j]] + 1 + multiset(r[j + 1..])[r[j]];
  }

  /** In a sequence without duplicates every value occurs at most once. */
  lemma {:induction false} NoDuplicatesCountsAtMostOne<T>(xs: seq<T>, y: T)
    requires NoDuplicates(xs)
    ensures multiset(xs)[y] <= 1
    decreases |xs|
  {
    if xs != [] {
      assert xs == [xs[0]] + xs[1..];
      assert NoDuplicates(xs[1..]) by {
        forall i, j | 0 <= i < j < |xs[1..]|
          ensures xs[1..][i] != xs[1..][j]
        {
          assert xs[1..][i] == xs[i + 1] && xs[1..][j] == xs[j + 1];
        }
      }
      NoDuplicatesCountsAtMostOne(xs[1..], y);
      forall m | 0 <= m < |xs[1..]|
        ensures xs[1..][m] != xs[0]
      {
        assert xs[1..][m] == xs[m + 1];
      }
      assert xs[0] !in xs[1..];
    }
  }

  /** Appending a value that is absent keeps a sequence free of duplicates. */
  lemma AppendKeepsNoDuplicates<T>(xs: seq<T>, y: T)
    requires NoDuplicates(xs) && y !in xs
    ensures NoDuplicates(xs + [y])
  {
    var r := xs + [y];
    forall i, j | 0 <= i < j < |r|
      ensures r[i] != r[j]
    {
      if j == |xs| {
        assert r[i] == xs[i];
      } else {
        assert r[i] == xs[i] && r[j] == xs[j];
      }
    }
  }

  /** Concatenating two constrained tables whose keys never meet keeps the constraint. */
  lemma AppendKeepsUniqueBy<T, K>(xs: seq<T>, ys: seq<T>, key: T -> K)
    requires UniqueBy(xs, key) && UniqueBy(ys, key)
    requires forall i, j :: 0 <= i < |xs| && 0 <= j < |ys| ==> key(xs[i]) != key(ys[j])
    ensures UniqueBy(xs + ys, key)
  {
    var r := xs + ys;
    forall i, j | 0 <= i < j < |r|
      ensures key(r[i]) != key(r[j])
    {
      if j < |xs| {
        assert r[i] == xs[i] && r[j] == xs[j];
      } else if i < |xs| {
        assert r[i] == xs[i] && r[j] == ys[j - |xs|];
      } else {
        assert r[i] == ys[i - |xs|] && r[j] == ys[j - |xs|];
      }
    }
  }

  /** Appending a value and then deleting it gives back the original rows,
      provided the value was not there before. */
  lemma AppendThenWithout<T>(xs: seq<T>, y: T)
    requires y !in xs
    ensures Without(xs + [y], y) == xs
  {
    AppendThenWithoutAux(xs, y);
  }

  lemma {:induction false} AppendThenWithoutAux<T>(xs: seq<T>, y: T)
    requires y !in xs
    ensures Without(xs + [y], y) == xs
    decreases |xs|
  {
    if xs == [] {
      assert [y][1..] == [];
    } else {
      assert (xs + [y])[0] == xs[0];
      assert (xs + [y])[1..] == xs[1..] + [y];
      AppendThenWithoutAux(xs[1..], y);
      assert xs == [xs[0]] + xs[1..];
    }
  }

  /** The values occurring in `xs`. */
  function Elements<T>(xs: seq<T>): set<T> {
    set x | x in xs
  }

  /** A sequence without duplicates has as many distinct values as elements. */
  lemma {:induction false} DistinctCardinality<T>(xs: seq<T>)
    requires NoDuplicates(xs)
    ensures |Elements(xs)| == |xs|
    decreases |xs|
  {
    if xs != [] {
      var rest := xs[1..];
      assert NoDuplicates(rest) by {
        forall i, j | 0 <= i < j < |rest| ensures rest[i] != rest[j] {
          assert rest[i] == xs[i + 1] && rest[j] == xs[j + 1];
        }
      }
      DistinctCardinality(rest);
      forall m | 0 <= m < |rest| ensures rest[m] != xs[0] {
        assert rest[m] == xs[m + 1];
      }
      assert Elements(xs) == Elements(rest) + {xs[0]};
    }
  }

  /** Every sequence is a subsequence of itself. */
  lemma {:induction false} SubsequenceOfSelf<T>(xs: seq<T>)
    ensures IsSubsequence(xs, xs)
    decreases |xs|
  {
    if xs != [] {
      SubsequenceOfSelf(xs[1..]);
    }
  }

  /** Filtering a sequence with a given head. */
  lemma FilterCons<T>(x: T, ys: seq<T>, keep: T -> bool)
    ensures Filter([x] + ys, keep) == if keep(x) then [x] + Filter(ys, keep) else Filter(ys, keep)
  {
    assert ([x] + ys)[0] == x;
    assert ([x] + ys)[1..] == ys;
  }

  /** Applying the same filter twice is applying it once. */
  lemma {:induction false} FilterIdempotent<T>(xs: seq<T>, keep: T -> bool)
    ensures Filter(Filter(xs, keep), keep) == Filter(xs, keep)
    decreases |xs|
  {
    if xs != [] {
      FilterIdempotent(xs[1..], keep);
      if keep(xs[0]) {
        FilterCons(xs[0], Filter(xs[1..], keep), keep);
      }
    }
  }

  /** Two filters give the same rows in either order. */
  lemma {:induction false} FilterCommutes<T>(xs: seq<T>, p: T -> bool, q: T -> bool)
    ensures Filter(Filter(xs, p), q) == Filter(Filter(xs, q), p)
    decreases |xs|
  {
    if xs != [] {
      var x := xs[0];
      FilterCommutes(xs[1..], p, q);
      if p(x) {
        FilterCons(x, Filter(xs[1..], p), q);
      }
      if q(x) {
        FilterCons(x, Filter(xs[1..], q), p);
      }
    }
  }
}

=== FILE: serializers.dfy ===
/** The recipe serializer's write side: validation of a submitted recipe, the
    atomic create and update that materialise it with its join rows, and the
    author projection used by the subscription serializer. */
module Serializers {
  import opened Seqs
  import opened Results
  import opened Models

  /** One entry of the submitted `ingredients` list. */
  datatype IngredientLine = IngredientLine(id: IngredientId, amount: int)

  /** The submitted payload of a create or a full update. An absent
      `ingredients` or `tags` key is represented by the empty list: the
      serializer treats both alike. */
  datatype RecipeInput = RecipeInput(
    name: string,
    text: string,
    image: Image,
    cookingTime: int,
    ingredients: seq<IngredientLine>,
    tags: seq<TagId>)

  /** What the validation loop checks about one list item, and the errors it
      raises when a check fails. */
  datatype ItemRules<!T> = ItemRules(
    idOf: T -> nat,
    wellFormed: T -> bool,
    missing: Failure,
    repeated: Failure,
    malformed: Failure)

  const IngredientRules: ItemRules<IngredientLine> := ItemRules(
    (l: IngredientLine) => l.id,
    (l: IngredientLine) => l.amount >= 1,
    NotFound(IngredientRecord),
    Invalid(DuplicateIngredient),
    Invalid(NonPositiveAmount))

  /** Tags have no per-item check besides existence and repetition: the
      well-formedness test always holds, so its error is never raised. */
  const TagRules: ItemRules<TagId> := ItemRules(
    (t: TagId) => t,
    (t: TagId) => true,
    NotFound(TagRecord),
    Invalid(DuplicateTag),
    Invalid(DuplicateTag))

  /** The validation loop over a list: each item's id must resolve, must not
      have been met before, and the item must be well formed; the first item
      that fails a check decides the error. */
  function CheckItems<T>(items: seq<T>, rules: ItemRules<T>, known: set<nat>, seen: set<nat>): Outcome
    decreases |items|
  {
    if items == [] then Pass
    else
      var id := rules.idOf(items[0]);
      if id !in known then Fail(rules.missing)
      else if id in seen then Fail(rules.repeated)
      else if !rules.wellFormed(items[0]) then Fail(rules.malformed)
      else CheckItems(items[1..], rules, known, seen + {id})
  }

  /** Object-level and field-level validation of a recipe payload. The
      field validator for the cooking time runs while the fields are
      deserialised, before the object-level pass over ingredients and tags. */
  function Validate(input: RecipeInput, s: Store): Outcome {
    if input.cookingTime < 1 then Fail(Invalid(CookingTimeTooSmall))
    else if |input.ingredients| == 0 then Fail(Invalid(EmptyIngredients))
    else match CheckItems(input.ingredients, IngredientRules, s.ingredients.Keys, {})
      case Fail(f) => Fail(f)
      case Pass =>
        if |input.tags| == 0 then Fail(Invalid(EmptyTags))
        else CheckItems(input.tags, TagRules, s.tags.Keys, {})
  }

  // ---------------------------------------------------------------------
  // What validation accepts, stated without reference to the loop.

  predicate IngredientsAcceptable(lines: seq<IngredientLine>, catalog: map<IngredientId, Ingredient>) {
    && |lines| > 0
    && (forall i :: 0 <= i < |lines| ==> lines[i].id in catalog && lines[i].amount >= 1)
    && (forall i, j :: 0 <= i < j < |lines| ==> lines[i].id != lines[j].id)
  }

  predicate TagsAcceptable(tags: seq<TagId>, catalog: map<TagId, Tag>) {
    && |tags| > 0
    && (forall i :: 0 <= i < |tags| ==> tags[i] in catalog)
    && NoDuplicates(tags)
  }

  predicate Acceptable(input: RecipeInput, s: Store) {
    && input.cookingTime >= 1
    && IngredientsAcceptable(input.ingredients, s.ingredients)
    && TagsAcceptable(input.tags, s.tags)
  }

  /** Ids met before position `k`, starting from `seen`. */
  function Prior<T>(items: seq<T>, k: int, idOf: T -> nat, seen: set<nat>): set<nat>
    requires 0 <= k <= |items|
  {
    seen + set j | 0 <= j < k :: idOf(items[j])
  }

  predicate ItemAccepted<T>(items: seq<T>, i: int, rules: ItemRules<T>, known: set<nat>, seen: set<nat>)
    requires 0 <= i < |items|
  {
    var id := rules.idOf(items[i]);
    id in known && id !in Prior(items, i, rules.idOf, seen) && rules.wellFormed(items[i])
  }

  lemma PriorShift<T>(items: seq<T>, k: int, idOf: T -> nat, seen: set<nat>)
    requires 1 <= k <= |items|
    ensures Prior(items[1..], k - 1, idOf, seen + {idOf(items[0])}) == Prior(items, k, idOf, seen)
  {
    var a := Prior(items[1..], k - 1, idOf, seen + {idOf(items[0])});
    var b := Prior(items, k, idOf, seen);
    forall x | x in b ensures x in a {
      if x !in seen {
        var j :| 0 <= j < k && idOf(items[j]) == x;
        if j > 0 {
          assert items[1..][j - 1] == items[j];
        }
      }
    }
    forall x | x in a ensures x in b {
      if x !in seen + {idOf(items[0])} {
        var j :| 0 <= j < k - 1 && idOf(items[1..][j]) == x;
        assert items[1..][j] == items[j + 1];
      }
    }
  }

  /** The loop passes exactly when every item passes its checks. */
  lemma {:induction false} CheckItemsAcceptsExactly<T>(items: seq<T>, rules: ItemRules<T>, known: set<nat>, seen: set<nat>)
    ensures CheckItems(items, rules, known, seen) == Pass
        <==> forall i :: 0 <= i < |items| ==> ItemAccepted(items, i, rules, known, seen)
    decreases |items|
  {
    if items != [] {
      var id := rules.idOf(items[0]);
      var rest := items[1..];
      CheckItemsAcceptsExactly(rest, rules, known, seen + {id});
      assert Prior(items, 0, rules.idOf, seen) == seen;
      forall i | 1 <= i < |items|
        ensures ItemAccepted(items, i, rules, known, seen) <==> ItemAccepted(rest, i - 1, rules, known, seen + {id})
      {
        PriorShift(items, i, rules.idOf, seen);
        assert rest[i - 1] == items[i];
      }
      if ItemAccepted(items, 0, rules, known, seen) {
        if forall i :: 0 <= i < |items| ==> ItemAccepted(items, i, rules, known, seen) {
          forall i | 0 <= i < |rest| ensures ItemAccepted(rest, i, rules, known, seen + {id}) {
            assert ItemAccepted(items, i + 1, rules, known, seen);
          }
        }
        if forall i :: 0 <= i < |rest| ==> ItemAccepted(rest, i, rules, known, seen + {id}) {
          forall i | 0 <= i < |items| ensures ItemAccepted(items, i, rules, known, seen) {
            if i > 0 {
              assert ItemAccepted(rest, i - 1, rules, known, seen + {id});
            }
          }
        }
      }
    }
  }

  /** The loop reports the first failing item, and for that item the first
      failing check: resolution, then repetition, then well-formedness. */
  lemma {:induction false} CheckItemsFirstFault<T>(items: seq<T>, rules: ItemRules<T>, known: set<nat>, seen: set<nat>, k: int)
    requires 0 <= k < |items|
    requires forall i :: 0 <= i < k ==> ItemAccepted(items, i, rules, known, seen)
    ensures rules.idOf(items[k]) !in known ==> CheckItems(items, rules, known, seen) == Fail(rules.missing)
    ensures rules.idOf(items[k]) in known && rules.idOf(items[k]) in Prior(items, k, rules.idOf, seen)
      ==> CheckItems(items, rules, known, seen) == Fail(rules.repeated)
    ensures rules.idOf(items[k]) in known && rules.idOf(items[k]) !in Prior(items, k, rules.idOf, seen)
      && !rules.wellFormed(items[k])
      ==> CheckItems(items, rules, known, seen) == Fail(rules.malformed)
    decreases k
  {
    if k == 0 {
      assert Prior(items, 0, rules.idOf, seen) == seen;
    } else {
      var id := rules.idOf(items[0]);
      var rest := items[1..];
      assert Prior(items, 0, rules.idOf, seen) == seen;
      assert ItemAccepted(items, 0, rules, known, seen);
      forall i | 0 <= i < k - 1
        ensures ItemAccepted(rest, i, rules, known, seen + {id})
      {
        PriorShift(items, i + 1, rules.idOf, seen);
        assert rest[i] == items[i + 1];
        assert ItemAccepted(items, i + 1, rules, known, seen);
      }
      CheckItemsFirstFault(rest, rules, known, seen + {id}, k - 1);
      PriorShift(items, k, rules.idOf, seen);
      assert rest[k - 1] == items[k];
    }
  }

  lemma PriorMembership<T>(items: seq<T>, k: int, idOf: T -> nat, seen: set<nat>, x: nat)
    requires 0 <= k <= |items|
    ensures x in Prior(items, k, idOf, seen) <==> x in seen || exists j :: 0 <= j < k && idOf(items[j]) == x
  {
  }

  /** Every item passes its checks from a clean start exactly when every id
      resolves, every item is well formed and no id repeats. */
  lemma AllItemsAccepted<T>(items: seq<T>, rules: ItemRules<T>, known: set<nat>)
    ensures (forall i :: 0 <= i < |items| ==> ItemAccepted(items, i, rules, known, {}))
        <==> (&& (forall i :: 0 <= i < |items| ==> rules.idOf(items[i]) in known && rules.wellFormed(items[i]))
              && UniqueBy(items, rules.idOf))
  {
    if forall i :: 0 <= i < |items| ==> ItemAccepted(items, i, rules, known, {}) {
      forall i, j | 0 <= i < j < |items|
        ensures rules.idOf(items[i]) != rules.idOf(items[j])
      {
        assert ItemAccepted(items, j, rules, known, {});
        PriorMembership(items, j, rules.idOf, {}, rules.idOf(items[i]));
      }
      forall i | 0 <= i < |items|
        ensures rules.idOf(items[i]) in known && rules.wellFormed(items[i])
      {
        assert ItemAccepted(items, i, rules, known, {});
      }
    }
    if && (forall i :: 0 <= i < |items| ==> rules.idOf(items[i]) in known && rules.wellFormed(items[i]))
       && UniqueBy(items, rules.idOf)
    {
      forall i | 0 <= i < |items|
        ensures ItemAccepted(items, i, rules, known, {})
      {
        forall j | 0 <= j < i ensures rules.idOf(items[j]) != rules.idOf(items[i]) {
        }
        PriorMembership(items, i, rules.idOf, {}, rules.idOf(items[i]));
      }
    }
  }

  lemma IngredientLinesAccepted(lines: seq<IngredientLine>, catalog: map<IngredientId, Ingredient>)
    requires |lines| > 0
    ensures CheckItems(lines, IngredientRules, catalog.Keys, {}) == Pass <==> IngredientsAcceptable(lines, catalog)
  {
    CheckItemsAcceptsExactly(lines, IngredientRules, catalog.Keys, {});
    AllItemsAccepted(lines, IngredientRules, catalog.Keys);
  }

  lemma TagListAccepted(tags: seq<TagId>, catalog: map<TagId, Tag>)
    requires |tags| > 0
    ensures CheckItems(tags, TagRules, catalog.Keys, {}) == Pass <==> TagsAcceptable(tags, catalog)
  {
    CheckItemsAcceptsExactly(tags, TagRules, catalog.Keys, {});
    AllItemsAccepted(tags, TagRules, catalog.Keys);
  }

  /** Validation lets a payload through exactly when the cooking time is at
      least 1, the ingredient list is non-empty with resolving, distinct ids
      and amounts of at least 1, and the tag list is non-empty with
      resolving, distinct ids. */
  lemma ValidateAcceptsExactly(input: RecipeInput, s: Store)
    ensures Validate(input, s) == Pass <==> Acceptable(input, s)
  {
    if input.cookingTime >= 1 && |input.ingredients| > 0 {
      IngredientLinesAccepted(input.ingredients, s.ingredients);
      if |input.tags| > 0 {
        TagListAccepted(input.tags, s.tags);
      }
    }
  }

  /** The order of the whole-payload checks: cooking time, then an empty
      ingredient list, then (once every ingredient line passed) an empty tag
      list. */
  lemma ValidationOrder(input: RecipeInput, s: Store)
    ensures input.cookingTime < 1 ==> Validate(input, s) == Fail(Invalid(CookingTimeTooSmall))
    ensures input.cookingTime >= 1 && |input.ingredients| == 0
      ==> Validate(input, s) == Fail(Invalid(EmptyIngredients))
    ensures input.cookingTime >= 1 && IngredientsAcceptable(input.ingredients, s.ingredients) && |input.tags| == 0
      ==> Validate(input, s) == Fail(Invalid(EmptyTags))
  {
    if input.cookingTime >= 1 && |input.ingredients| > 0 {
      IngredientLinesAccepted(input.ingredients, s.ingredients);
    }
  }

  /** Ingredient lines are checked one by one in list order. At the first
      line that is not fine, an unknown id gives NotFound, an id met on an
      earlier line gives the duplicate error whatever the amounts, and
      otherwise an amount of 0 or less gives the amount error. */
  lemma IngredientLinesCheckedInOrder(input: RecipeInput, s: Store, k: int)
    requires input.cookingTime >= 1
    requires 0 <= k < |input.ingredients|
    requires forall i :: 0 <= i < k ==>
      && input.ingredients[i].id in s.ingredients
      && input.ingredients[i].amount >= 1
      && (forall j :: 0 <= j < i ==> input.ingredients[j].id != input.ingredients[i].id)
    ensures input.ingredients[k].id !in s.ingredients
      ==> Validate(input, s) == Fail(NotFound(IngredientRecord))
    ensures input.ingredients[k].id in s.ingredients
      && (exists j :: 0 <= j < k && input.ingredients[j].id == input.ingredients[k].id)
      ==> Validate(input, s) == Fail(Invalid(DuplicateIngredient))
    ensures input.ingredients[k].id in s.ingredients
      && (forall j :: 0 <= j < k ==> input.ingredients[j].id != input.ingredients[k].id)
      && input.ingredients[k].amount <= 0
      ==> Validate(input, s) == Fail(Invalid(NonPositiveAmount))
  {
    var lines := input.ingredients;
    forall i | 0 <= i < k
      ensures ItemAccepted(lines, i, IngredientRules, s.ingredients.Keys, {})
    {
      PriorMembership(lines, i, IngredientRules.idOf, {}, lines[i].id);
    }
    CheckItemsFirstFault(lines, IngredientRules, s.ingredients.Keys, {}, k);
    PriorMembership(lines, k, IngredientRules.idOf, {}, lines[k].id);
  }

  /** Once the ingredients passed, tags are checked one by one in list
      order: at the first tag that is not fine, an unknown id gives
      NotFound and an id met earlier gives the duplicate error. */
  lemma TagsCheckedInOrder(input: RecipeInput, s: Store, k: int)
    requires input.cookingTime >= 1
    requires IngredientsAcceptable(input.ingredients, s.ingredients)
    requires 0 <= k < |input.tags|
    requires forall i :: 0 <= i < k ==>
      input.tags[i] in s.tags && (forall j :: 0 <= j < i ==> input.tags[j] != input.tags[i])
    ensures input.tags[k] !in s.tags ==> Validate(input, s) == Fail(NotFound(TagRecord))
    ensures input.tags[k] in s.tags && (exists j :: 0 <= j < k && input.tags[j] == input.tags[k])
      ==> Validate(input, s) == Fail(Invalid(DuplicateTag))
  {
    IngredientLinesAccepted(input.ingredients, s.ingredients);
    var tags := input.tags;
    forall i | 0 <= i < k
      ensures ItemAccepted(tags, i, TagRules, s.tags.Keys, {})
    {
      PriorMembership(tags, i, TagRules.idOf, {}, tags[i]);
    }
    CheckItemsFirstFault(tags, TagRules, s.tags.Keys, {}, k);
    PriorMembership(tags, k, TagRules.idOf, {}, tags[k]);
  }

  // ---------------------------------------------------------------------
  // Create and update: atomic writes of a recipe with its join rows. An
  // error leaves the store as it was: the caller keeps the old store.

  /** The RecipeIngredient rows a payload asks for, in list order. */
  function NewRows(id: RecipeId, lines: seq<IngredientLine>): (rows: seq<RecipeIngredient>)
    ensures |rows| == |lines|
    ensures forall i :: 0 <= i < |lines| ==> rows[i] == RecipeIngredient(id, lines[i].id, lines[i].amount)
  {
    seq(|lines|, i requires 0 <= i < |lines| => RecipeIngredient(id, lines[i].id, lines[i].amount))
  }

  function NewTagRows(id: RecipeId, tags: seq<TagId>): set<RecipeTag> {
    set t | t in tags :: RecipeTag(id, t)
  }

  /** The (ingredient, amount) pairs stored for recipe `id`. */
  function IngredientsOf(s: Store, id: RecipeId): set<(IngredientId, int)> {
    set row | row in s.recipeIngredients && row.recipe == id :: (row.ingredient, row.amount)
  }

  /** The (ingredient, amount) pairs a payload submits. */
  function Submitted(lines: seq<IngredientLine>): set<(IngredientId, int)> {
    set l | l in lines :: (l.id, l.amount)
  }

  /** The tags stored for recipe `id`. */
  function TagsOf(s: Store, id: RecipeId): set<TagId> {
    set t | t in s.recipeTags && t.recipe == id :: t.tag
  }

  /** Creating a recipe for the acting `user` at time `now`: after
      validation, one recipe row under the next id, its tag rows, and one
      ingredient row per submitted line. */
  function Create(s: Store, user: UserId, input: RecipeInput, now: int): (r: Result<Store>)
    ensures r.Ok? <==> Acceptable(input, s)
    ensures r.Err? ==> Validate(input, s) == Fail(r.failure)
    ensures r.Ok? ==>
      && r.value.recipes.Keys == s.recipes.Keys + {s.nextRecipeId}
      && r.value.recipes[s.nextRecipeId]
         == Recipe(user, input.name, input.image, input.text, input.cookingTime, now)
      && (forall k | k in s.recipes && k != s.nextRecipeId :: r.value.recipes[k] == s.recipes[k])
      && r.value.nextRecipeId > s.nextRecipeId
      && |r.value.recipeIngredients| == |s.recipeIngredients| + |input.ingredients|
      && r.value.recipeIngredients[..|s.recipeIngredients|] == s.recipeIngredients
      && s.recipeTags <= r.value.recipeTags
      && r.value.users == s.users && r.value.tags == s.tags && r.value.ingredients == s.ingredients
      && r.value.favorites == s.favorites && r.value.shoppingCart == s.shoppingCart
      && r.value.follows == s.follows
  {
    ValidateAcceptsExactly(input, s);
    match Validate(input, s)
    case Fail(f) => Err(f)
    case Pass =>
      var id := s.nextRecipeId;
      Ok(s.(recipes := s.recipes[id := Recipe(user, input.name, input.image, input.text, input.cookingTime, now)],
            nextRecipeId := id + 1,
            recipeTags := s.recipeTags + NewTagRows(id, input.tags),
            recipeIngredients := s.recipeIngredients + NewRows(id, input.ingredients)))
  }

  /** After a successful create the new recipe's ingredient rows are exactly
      the submitted (id, amount) pairs, its tags exactly the submitted tags,
      its author the acting user, and no other recipe's rows changed. */
  lemma CreateStoresSubmission(s: Store, user: UserId, input: RecipeInput, now: int)
    requires Valid(s)
    requires Create(s, user, input, now).Ok?
    ensures var t := Create(s, user, input, now).value; var id := s.nextRecipeId;
      && id !in s.recipes
      && t.recipes[id].author == user
      && IngredientsOf(t, id) == Submitted(input.ingredients)
      && TagsOf(t, id) == set g | g in input.tags
      && (forall other | other != id :: IngredientsOf(t, other) == IngredientsOf(s, other))
      && (forall other | other != id :: TagsOf(t, other) == TagsOf(s, other))
  {
    var t := Create(s, user, input, now).value;
    var id := s.nextRecipeId;
    var added := NewRows(id, input.ingredients);
    assert t.recipeIngredients == s.recipeIngredients + added;
    assert forall row | row in s.recipeIngredients :: row.recipe != id;
    assert IngredientsOf(t, id) == Submitted(input.ingredients) by {
      forall p | p in IngredientsOf(t, id) ensures p in Submitted(input.ingredients) {
        var row :| row in t.recipeIngredients && row.recipe == id && p == (row.ingredient, row.amount);
        var i :| 0 <= i < |added| && added[i] == row;
        assert input.ingredients[i] in input.ingredients;
      }
      forall p | p in Submitted(input.ingredients) ensures p in IngredientsOf(t, id) {
        var l :| l in input.ingredients && p == (l.id, l.amount);
        var i :| 0 <= i < |input.ingredients| && input.ingredients[i] == l;
        assert added[i] in t.recipeIngredients;
      }
    }
    forall other | other != id
      ensures IngredientsOf(t, other) == IngredientsOf(s, other)
    {
      forall p | p in IngredientsOf(t, other) ensures p in IngredientsOf(s, other) {
        var row :| row in t.recipeIngredients && row.recipe == other && p == (row.ingredient, row.amount);
        assert row !in added;
      }
    }
    assert t.recipeTags == s.recipeTags + NewTagRows(id, input.tags);
    assert forall g | g in s.recipeTags :: g.recipe != id;
    assert TagsOf(t, id) == set g | g in input.tags by {
      forall g | g in input.tags ensures g in TagsOf(t, id) {
        assert RecipeTag(id, g) in t.recipeTags;
      }
    }
    forall other | other != id
      ensures TagsOf(t, other) == TagsOf(s, other)
    {
      forall g | g in TagsOf(t, other) ensures g in TagsOf(s, other) {
        assert RecipeTag(other, g) in t.recipeTags;
      }
    }
  }

  /** Create keeps the schema invariant when the acting user exists. */
  lemma CreatePreservesValid(s: Store, user: UserId, input: RecipeInput, now: int)
    requires Valid(s) && user in s.users
    requires Create(s, user, input, now).Ok?
    ensures Valid(Create(s, user, input, now).value)
  {
    var t := Create(s, user, input, now).value;
    var id := s.nextRecipeId;
    var added := NewRows(id, input.ingredients);
    assert UniqueBy(added, RowKey) by {
      forall i, j | 0 <= i < j < |added| ensures RowKey(added[i]) != RowKey(added[j]) {
        assert input.ingredients[i].id != input.ingredients[j].id;
      }
    }
    forall i, j | 0 <= i < |s.recipeIngredients| && 0 <= j < |added|
      ensures RowKey(s.recipeIngredients[i]) != RowKey(added[j])
    {
      assert s.recipeIngredients[i] in s.recipeIngredients;
    }
    AppendKeepsUniqueBy(s.recipeIngredients, added, RowKey);
    assert RecipeIngredientsValid(t) by {
      forall row | row in t.recipeIngredients
        ensures row.recipe in t.recipes && row.ingredient in t.ingredients && row.amount >= 1
      {
        if row !in s.recipeIngredients {
          var i :| 0 <= i < |added| && added[i] == row;
        }
      }
    }
  }

  /** Update of recipe `id` with the full replacement semantics the code
      aims at: scalar fields overwritten, every ingredient row of the recipe
      deleted and the submitted ones inserted, tags set to the submitted
      ones. This is the behaviour the rest of the model relies on. */
  function Update(s: Store, id: RecipeId, input: RecipeInput): (r: Result<Store>)
    ensures id !in s.recipes ==> r == Err(NotFound(RecipeRecord))
    ensures id in s.recipes ==> (r.Ok? <==> Acceptable(input, s))
    ensures id in s.recipes && r.Err? ==> Validate(input, s) == Fail(r.failure)
    ensures r.Ok? ==>
      && r.value.recipes.Keys == s.recipes.Keys
      && r.value.recipes[id].name == input.name && r.value.recipes[id].text == input.text
      && r.value.recipes[id].image == input.image && r.value.recipes[id].cookingTime == input.cookingTime
      && r.value.recipes[id].author == s.recipes[id].author
      && r.value.recipes[id].pubDate == s.recipes[id].pubDate
      && (forall k | k in s.recipes && k != id :: r.value.recipes[k] == s.recipes[k])
      && r.value.users == s.users && r.value.tags == s.tags && r.value.ingredients == s.ingredients
      && r.value.favorites == s.favorites && r.value.shoppingCart == s.shoppingCart
      && r.value.follows == s.follows && r.value.nextRecipeId == s.nextRecipeId
  {
    if id !in s.recipes then Err(NotFound(RecipeRecord))
    else
      ValidateAcceptsExactly(input, s);
      match Validate(input, s)
      case Fail(f) => Err(f)
      case Pass =>
        var current := s.recipes[id];
        Ok(s.(recipes := s.recipes[id := current.(name := input.name, text := input.text,
                                               image := input.image, cookingTime := input.cookingTime)],
              recipeIngredients := Filter(s.recipeIngredients, (row: RecipeIngredient) => row.recipe != id)
                                   + NewRows(id, input.ingredients),
              recipeTags := (set t | t in s.recipeTags && t.recipe != id) + NewTagRows(id, input.tags)))
  }

  /** Update replaces rather than merges: afterwards the recipe's ingredient
      rows are exactly the submitted pairs (so a prior ingredient that is not
      resubmitted has no row left), its tags exactly the submitted tags, and
      every row of every other recipe is as it was. */
  lemma UpdateReplacesJoinRows(s: Store, id: RecipeId, input: RecipeInput)
    requires Update(s, id, input).Ok?
    ensures var t := Update(s, id, input).value;
      && IngredientsOf(t, id) == Submitted(input.ingredients)
      && TagsOf(t, id) == set g | g in input.tags
      && (forall row | row in s.recipeIngredients && row.recipe == id
            && (forall l | l in input.ingredients :: l.id != row.ingredient)
            :: forall row' | row' in t.recipeIngredients :: RowKey(row') != RowKey(row))
      && (forall row: RecipeIngredient | row.recipe != id
            :: row in t.recipeIngredients <==> row in s.recipeIngredients)
      && (forall g: RecipeTag | g.recipe != id :: g in t.recipeTags <==> g in s.recipeTags)
  {
    var t := Update(s, id, input).value;
    var kept := Filter(s.recipeIngredients, (row: RecipeIngredient) => row.recipe != id);
    var added := NewRows(id, input.ingredients);
    assert t.recipeIngredients == kept + added;
    assert IngredientsOf(t, id) == Submitted(input.ingredients) by {
      forall p | p in IngredientsOf(t, id) ensures p in Submitted(input.ingredients) {
        var row :| row in t.recipeIngredients && row.recipe == id && p == (row.ingredient, row.amount);
        assert row !in kept;
        var i :| 0 <= i < |added| && added[i] == row;
        assert input.ingredients[i] in input.ingredients;
      }
      forall p | p in Submitted(input.ingredients) ensures p in IngredientsOf(t, id) {
        var l :| l in input.ingredients && p == (l.id, l.amount);
        var i :| 0 <= i < |input.ingredients| && input.ingredients[i] == l;
        assert added[i] in t.recipeIngredients;
      }
    }
    forall row | row in s.recipeIngredients && row.recipe == id
        && (forall l | l in input.ingredients :: l.id != row.ingredient)
      ensures forall row' | row' in t.recipeIngredients :: RowKey(row') != RowKey(row)
    {
      forall row' | row' in t.recipeIngredients ensures RowKey(row') != RowKey(row) {
        if row' !in kept {
          var i :| 0 <= i < |added| && added[i] == row';
          assert input.ingredients[i] in input.ingredients;
        }
      }
    }
    forall row: RecipeIngredient | row.recipe != id
      ensures row in t.recipeIngredients <==> row in s.recipeIngredients
    {
      assert row !in added;
    }
    assert t.recipeTags == (set g | g in s.recipeTags && g.recipe != id) + NewTagRows(id, input.tags);
    assert TagsOf(t, id) == set g | g in input.tags by {
      forall g | g in input.tags ensures g in TagsOf(t, id) {
        assert RecipeTag(id, g) in t.recipeTags;
      }
      forall g | g in TagsOf(t, id) ensures g in input.tags {
        var row :| row in t.recipeTags && row.recipe == id && row.tag == g;
        assert row in NewTagRows(id, input.tags);
      }
    }
  }

  /** Update keeps the schema invariant. */
  lemma UpdatePreservesValid(s: Store, id: RecipeId, input: RecipeInput)
    requires Valid(s)
    requires Update(s, id, input).Ok?
    ensures Valid(Update(s, id, input).value)
  {
    var t := Update(s, id, input).value;
    var keep := (row: RecipeIngredient) => row.recipe != id;
    var kept := Filter(s.recipeIngredients, keep);
    var added := NewRows(id, input.ingredients);
    assert t.recipeIngredients == kept + added;
    FilterKeepsUniqueBy(s.recipeIngredients, keep, RowKey);
    assert UniqueBy(added, RowKey) by {
      forall i, j | 0 <= i < j < |added| ensures RowKey(added[i]) != RowKey(added[j]) {
        assert input.ingredients[i].id != input.ingredients[j].id;
      }
    }
    forall i, j | 0 <= i < |kept| && 0 <= j < |added|
      ensures RowKey(kept[i]) != RowKey(added[j])
    {
      assert kept[i] in kept;
    }
    AppendKeepsUniqueBy(kept, added, RowKey);
    assert RecipeIngredientsValid(t) by {
      forall row | row in t.recipeIngredients
        ensures row.recipe in t.recipes && row.ingredient in t.ingredients && row.amount >= 1
      {
        if row !in kept {
          var i :| 0 <= i < |added| && added[i] == row;
        }
      }
    }
  }

  // ---------------------------------------------------------------------
  // The update as the code writes it.

  /** A concrete field of a model as declared: its name, and whether it is a
      foreign key, whose column attribute is the name followed by `_id`. */
  datatype FieldDecl = FieldDecl(name: string, foreignKey: bool)

  /** The fields of RecipeIngredient; its foreign key to the recipe is
      declared under the name `recipe_id`. */
  const RecipeIngredientDecls: seq<FieldDecl> := [
    FieldDecl("id", false),
    FieldDecl("recipe_id", true),
    FieldDecl("ingredient", true),
    FieldDecl("amount", false)]

  function Attname(f: FieldDecl): (a: string)
    ensures f.foreignKey ==> a == f.name + "_id"
    ensures !f.foreignKey ==> a == f.name
  {
    if f.foreignKey then f.name + "_id" else f.name
  }

  /** The keywords a lookup on the model resolves: the `pk` alias, every
      field name and every field's column attribute. */
  function LookupNames(decls: seq<FieldDecl>): (names: set<string>)
    ensures "pk" in names
    ensures forall f | f in decls :: f.name in names && Attname(f) in names
    ensures forall k | k in names :: k == "pk" || exists f | f in decls :: k == f.name || k == Attname(f)
  {
    if decls == [] then {"pk"}
    else
      var rest := LookupNames(decls[1..]);
      assert forall f | f in decls[1..] :: f in decls;
      rest + {decls[0].name, Attname(decls[0])}
  }

  /** Resolving a lookup keyword on RecipeIngredient: an unknown name raises
      a field error that nothing catches. */
  function ResolveField(keyword: string): (r: Outcome)
    ensures r == Pass <==> (keyword == "pk"
      || exists f | f in RecipeIngredientDecls :: keyword == f.name || keyword == Attname(f))
    ensures r.Fail? ==> r.failure == ServerError
  {
    if keyword in LookupNames(RecipeIngredientDecls) then Pass else Fail(ServerError)
  }

  /** `recipe` is neither a field name nor a column attribute of
      RecipeIngredient, while its declared names and attributes resolve. */
  lemma RecipeKeywordUnresolved()
    ensures ResolveField("recipe") == Fail(ServerError)
    ensures ResolveField("recipe_id") == Pass && ResolveField("recipe_id_id") == Pass
    ensures ResolveField("ingredient_id") == Pass && ResolveField("pk") == Pass
  {
    var d := RecipeIngredientDecls;
    forall f | f in d
      ensures "recipe" != f.name && "recipe" != Attname(f)
    {
      assert f == d[0] || f == d[1] || f == d[2] || f == d[3];
    }
    assert d[1] in d && d[2] in d;
    assert Attname(d[1]) == "recipe_id_id";
    assert Attname(d[2]) == "ingredient_id";
  }

  /** Update as written: after the scalar fields are saved, the deletion of
      the old ingredient rows filters on the keyword `recipe`, which names no
      field of RecipeIngredient; the exception unwinds the atomic block and
      every write of the call is rolled back. */
  function UpdateAsWritten(s: Store, id: RecipeId, input: RecipeInput): (r: Result<Store>)
    ensures id !in s.recipes ==> r == Err(NotFound(RecipeRecord))
    ensures id in s.recipes && Validate(input, s).Fail? ==> r == Err(Validate(input, s).failure)
    ensures r.Err? && r.failure != ServerError ==> r == Update(s, id, input)
  {
    if id !in s.recipes then Err(NotFound(RecipeRecord))
    else match Validate(input, s)
      case Fail(f) => Err(f)
      case Pass =>
        match ResolveField("recipe")
        case Fail(f) => Err(f)
        case Pass => Update(s, id, input)
  }

  /** The discrepancy: every update that the intended semantics accepts is
      answered with a server error and changes nothing. */
  lemma UpdateAsWrittenNeverCommits(s: Store, id: RecipeId, input: RecipeInput)
    ensures UpdateAsWritten(s, id, input).Err?
    ensures Update(s, id, input).Ok? ==> UpdateAsWritten(s, id, input) == Err(ServerError)
  {
    RecipeKeywordUnresolved();
    var resolved := ResolveField("recipe");
    assert resolved == Fail(ServerError);
    if id in s.recipes && Validate(input, s).Pass? {
      assert UpdateAsWritten(s, id, input) == Err(ServerError);
    }
  }

  // ---------------------------------------------------------------------
  // The author's recipes shown with a subscription.

  /** The short recipe projection: id, name, image and cooking time. */
  datatype RecipeSummary = RecipeSummary(id: RecipeId, name: string, image: Image, cookingTime: int)

  function Summarize(s: Store, ids: seq<RecipeId>): (r: seq<RecipeSummary>)
    requires forall id | id in ids :: id in s.recipes
    ensures |r| == |ids|
    ensures forall i :: 0 <= i < |ids| ==>
      && r[i].id == ids[i]
      && r[i].name == s.recipes[ids[i]].name
      && r[i].image == s.recipes[ids[i]].image
      && r[i].cookingTime == s.recipes[ids[i]].cookingTime
  {
    seq(|ids|, i requires 0 <= i < |ids| =>
      var rec := s.recipes[ids[i]];
      RecipeSummary(ids[i], rec.name, rec.image, rec.cookingTime))
  }

  /** `listing` is the author's recipes as the recipe table returns them:
      each exactly once, newest first. */
  predicate IsAuthorListing(s: Store, author: UserId, listing: seq<RecipeId>) {
    && NoDuplicates(listing)
    && (forall id | id in listing :: id in s.recipes && s.recipes[id].author == author)
    && (forall id | id in s.recipes && s.recipes[id].author == author :: id in listing)
    && (forall i, j :: 0 <= i < j < |listing| && listing[i] in s.recipes && listing[j] in s.recipes
          ==> s.recipes[listing[i]].pubDate >= s.recipes[listing[j]].pubDate)
  }

  /** The `recipes_count` field: how many recipes `author` has. */
  function RecipesCount(s: Store, author: UserId): nat {
    |set id | id in s.recipes && s.recipes[id].author == author|
  }

  /** The count agrees with the listing it summarises. */
  lemma RecipesCountMatchesListing(s: Store, author: UserId, listing: seq<RecipeId>)
    requires IsAuthorListing(s, author, listing)
    ensures RecipesCount(s, author) == |listing|
  {
    DistinctCardinality(listing);
    var mine := set id | id in s.recipes && s.recipes[id].author == author;
    assert mine == Elements(listing);
    assert RecipesCount(s, author) == |mine|;
  }

  /** The `recipes` field: the author's recipes, newest first, cut to the
      first `limit` when the `recipes_limit` parameter is given. `None` is an
      absent or empty parameter; a present "0" still cuts to nothing; a
      negative limit makes the slice raise. */
  function GetRecipes(s: Store, author: UserId, listing: seq<RecipeId>, limit: Option<int>): (r: Result<seq<RecipeSummary>>)
    requires IsAuthorListing(s, author, listing)
    ensures r.Err? <==> limit.Some? && limit.value < 0
    ensures r.Err? ==> r.failure == ServerError
    ensures r.Ok? && limit.None? ==> |r.value| == RecipesCount(s, author)
    ensures r.Ok? && limit.Some? ==> |r.value| == if limit.value < RecipesCount(s, author) then limit.value else RecipesCount(s, author)
    ensures r.Ok? ==> |r.value| <= |listing| && forall i :: 0 <= i < |r.value| ==> r.value[i].id == listing[i]
    ensures r.Ok? ==> forall e | e in r.value :: e.id in s.recipes && s.recipes[e.id].author == author
    ensures r.Ok? ==> forall e | e in r.value ::
      && e.name == s.recipes[e.id].name
      && e.image == s.recipes[e.id].image
      && e.cookingTime == s.recipes[e.id].cookingTime
  {
    RecipesCountMatchesListing(s, author, listing);
    match limit
    case None => Ok(Summarize(s, listing))
    case Some(n) =>
      if n < 0 then Err(ServerError)
      else if n < |listing| then Ok(Summarize(s, listing[..n]))
      else Ok(Summarize(s, listing))
  }
}

=== FILE: views.dfy ===
/** The actions of the recipe and user view sets that the model covers: verb
    dispatch of the list actions, subscribing to an author, and the
    shopping-list download. */
module Views {
  import opened Seqs
  import opened Results
  import opened Models
  import opened Mixins
  import opened Decimal

  // ---------------------------------------------------------------------
  // Favourites and shopping cart: one action per list, POST adds, DELETE
  // removes.

  /** The favourite / shopping_cart action for `recipe`: `None` is the
      missing response of a method that is neither POST nor DELETE. */
  function ListAction(s: Store, m: Method, kind: ListKind, user: UserId, recipe: RecipeId): (r: Option<Result<Store>>)
    ensures r.Some? <==> m == Post || m == Delete
    ensures m == Post ==> r == Some(AddToList(s, kind, user, recipe))
    ensures m == Delete ==> r == Some(RemoveFromList(s, kind, user, recipe))
  {
    Dispatch(m, AddToList(s, kind, user, recipe), RemoveFromList(s, kind, user, recipe))
  }

  /** The status a list action answers with. */
  function ListActionStatus(s: Store, m: Method, kind: ListKind, user: UserId, recipe: RecipeId): (code: int)
    requires m == Post || m == Delete
    ensures recipe !in s.recipes ==> code == NotFoundStatus
    ensures recipe in s.recipes && m == Post ==>
      (code == Created <==> !Listed(s, kind, user, recipe)) && (code == BadRequest <==> Listed(s, kind, user, recipe))
    ensures recipe in s.recipes && m == Delete ==>
      (code == NoContent <==> Listed(s, kind, user, recipe)) && (code == BadRequest <==> !Listed(s, kind, user, recipe))
  {
    Status(ListAction(s, m, kind, user, recipe).value, if m == Post then Created else NoContent)
  }

  // ---------------------------------------------------------------------
  // Subscriptions.

  /** POST on an author's subscribe action: the author must exist (404); an
      existing subscription is reported first, then a subscription to
      oneself; otherwise one Follow row is inserted (201). */
  function Subscribe(s: Store, user: UserId, author: UserId): (r: Result<Store>)
    ensures author !in s.users ==> r == Err(NotFound(UserRecord))
    ensures author in s.users && Follow(user, author) in s.follows ==> r == Err(Conflict(AlreadyFollowing))
    ensures author in s.users && Follow(user, author) !in s.follows && user == author ==> r == Err(Conflict(CannotFollowSelf))
    ensures r.Ok? <==> author in s.users && Follow(user, author) !in s.follows && user != author
    ensures r.Ok? ==> multiset(r.value.follows) == multiset(s.follows) + multiset{Follow(user, author)}
    ensures r.Ok? ==> r.value.(follows := s.follows) == s
  {
    if author !in s.users then Err(NotFound(UserRecord))
    else if Follow(user, author) in s.follows then Err(Conflict(AlreadyFollowing))
    else if user == author then Err(Conflict(CannotFollowSelf))
    else Ok(s.(follows := s.follows + [Follow(user, author)]))
  }

  /** DELETE on an author's subscribe action: the author must exist (404);
      existing subscription rows are deleted (204), otherwise 400. */
  function Unsubscribe(s: Store, user: UserId, author: UserId): (r: Result<Store>)
    ensures author !in s.users ==> r == Err(NotFound(UserRecord))
    ensures author in s.users ==> (r.Ok? <==> Follow(user, author) in s.follows)
    ensures author in s.users && r.Err? ==> r.failure == Conflict(NotFollowing)
    ensures r.Ok? ==> Follow(user, author) !in r.value.follows
    ensures r.Ok? ==> forall f | f in s.follows && f != Follow(user, author) :: f in r.value.follows
    ensures r.Ok? ==> forall f | f in r.value.follows :: f in s.follows
    ensures r.Ok? ==> multiset(r.value.follows) == multiset(s.follows)[Follow(user, author) := 0]
    ensures r.Ok? ==> r.value.(follows := s.follows) == s
  {
    if author !in s.users then Err(NotFound(UserRecord))
    else if Follow(user, author) in s.follows then Ok(s.(follows := Without(s.follows, Follow(user, author))))
    else Err(Conflict(NotFollowing))
  }

  /** The subscribe action with its verb dispatch. */
  function SubscribeAction(s: Store, m: Method, user: UserId, author: UserId): (r: Option<Result<Store>>)
    ensures r.Some? <==> m == Post || m == Delete
    ensures m == Post ==> r == Some(Subscribe(s, user, author))
    ensures m == Delete ==> r == Some(Unsubscribe(s, user, author))
  {
    Dispatch(m, Subscribe(s, user, author), Unsubscribe(s, user, author))
  }

  /** Nobody follows themselves. */
  predicate NoSelfFollow(s: Store) {
    forall f | f in s.follows :: f.user != f.author
  }

  /** Subscribing to oneself is always refused, with a 400 whether or not a
      self-follow row already exists, and no subscription ever introduces a
      self-follow. */
  lemma SubscribeNeverFollowsSelf(s: Store, user: UserId, author: UserId)
    ensures Subscribe(s, user, user).Err?
    ensures user in s.users ==> Subscribe(s, user, user).failure.Conflict?
    ensures NoSelfFollow(s) && Subscribe(s, user, author).Ok? ==> NoSelfFollow(Subscribe(s, user, author).value)
  {
    if NoSelfFollow(s) && Subscribe(s, user, author).Ok? {
      var t := Subscribe(s, user, author).value;
      forall f | f in t.follows ensures f.user != f.author {
        assert multiset(t.follows)[f] > 0;
      }
    }
  }

  /** Unsubscribing right after subscribing restores the store exactly. */
  lemma SubscribeThenUnsubscribeRestores(s: Store, user: UserId, author: UserId)
    requires Subscribe(s, user, author).Ok?
    ensures Unsubscribe(Subscribe(s, user, author).value, user, author) == Ok(s)
  {
    AppendThenWithout(s.follows, Follow(user, author));
  }

  /** Subscribing again after unsubscribing restores the subscriptions. */
  lemma UnsubscribeThenSubscribeRestores(s: Store, user: UserId, author: UserId)
    requires Valid(s) && user != author
    requires Unsubscribe(s, user, author).Ok?
    ensures var t := Unsubscribe(s, user, author).value;
      && Subscribe(t, user, author).Ok?
      && multiset(Subscribe(t, user, author).value.follows) == multiset(s.follows)
  {
    NoDuplicatesCountsAtMostOne(s.follows, Follow(user, author));
  }

  /** Both subscription changes keep the schema invariant, including the
      unique (user, author) constraint. */
  lemma SubscriptionsPreserveValid(s: Store, user: UserId, author: UserId)
    requires Valid(s) && user in s.users
    ensures Subscribe(s, user, author).Ok? ==> Valid(Subscribe(s, user, author).value)
    ensures Unsubscribe(s, user, author).Ok? ==> Valid(Unsubscribe(s, user, author).value)
  {
    if Subscribe(s, user, author).Ok? {
      AppendKeepsNoDuplicates(s.follows, Follow(user, author));
    }
    if Unsubscribe(s, user, author).Ok? {
      WithoutKeepsNoDuplicates(s.follows, Follow(user, author));
    }
  }

  // ---------------------------------------------------------------------
  // The shopping list: ingredient rows of the recipes in the user's cart,
  // joined through the cart table, grouped by (name, unit) with amounts
  // summed.

  /** One line of the shopping list. */
  datatype Group = Group(name: string, unit: string, total: int)

  function GroupKey(g: Group): (string, string) {
    (g.name, g.unit)
  }

  /** How many cart rows pair `user` with `recipe`: the join repeats an
      ingredient row once per matching cart row. */
  function CartCount(s: Store, user: UserId, recipe: RecipeId): nat {
    multiset(s.shoppingCart)[ListEntry(user, recipe)]
  }

  /** `row` survives the join with the catalogue and the user's cart. */
  predicate Joins(s: Store, user: UserId, row: RecipeIngredient) {
    row.ingredient in s.ingredients && CartCount(s, user, row.recipe) > 0
  }

  /** The (name, unit) group a joined row falls into. */
  function KeyOf(s: Store, row: RecipeIngredient): (string, string)
    requires row.ingredient in s.ingredients
  {
    (s.ingredients[row.ingredient].name, s.ingredients[row.ingredient].measurementUnit)
  }

  /** Some row of `rows` produces group `k`. */
  predicate Contributes(s: Store, user: UserId, rows: seq<RecipeIngredient>, k: (string, string)) {
    exists i :: 0 <= i < |rows| && Joins(s, user, rows[i]) && KeyOf(s, rows[i]) == k
  }

  function Contribution(s: Store, user: UserId, row: RecipeIngredient, k: (string, string)): int {
    if Joins(s, user, row) && KeyOf(s, row) == k then row.amount * CartCount(s, user, row.recipe) else 0
  }

  /** The `Sum('amount')` of group `k` over the joined rows. */
  function SumFor(s: Store, user: UserId, rows: seq<RecipeIngredient>, k: (string, string)): int {
    if rows == [] then 0
    else SumFor(s, user, rows[..|rows| - 1], k) + Contribution(s, user, rows[|rows| - 1], k)
  }

  /** The group exists in the list. */
  predicate HasGroup(groups: seq<Group>, k: (string, string)) {
    exists j :: 0 <= j < |groups| && GroupKey(groups[j]) == k
  }

  const Header: string := "Ваш список покупок:\n\n"

  /** One rendered line: capitalised name, total and unit. */
  function Line(g: Group, capitalize: string -> string): string {
    capitalize(g.name) + " - " + IntToDecimal(g.total) + " " + g.unit + "\n"
  }

  function Lines(groups: seq<Group>, capitalize: string -> string): string {
    if groups == [] then ""
    else Lines(groups[..|groups| - 1], capitalize) + Line(groups[|groups| - 1], capitalize)
  }

  /** The text file: the header, then one line per group in output order. */
  function Report(groups: seq<Group>, capitalize: string -> string): (r: string)
    ensures |r| >= |Header| && r[..|Header|] == Header
    ensures groups == [] ==> r == Header
  {
    Header + Lines(groups, capitalize)
  }

  lemma {:induction false} NoContributionSumsZero(s: Store, user: UserId, rows: seq<RecipeIngredient>, k: (string, string))
    requires !Contributes(s, user, rows, k)
    ensures SumFor(s, user, rows, k) == 0
    decreases |rows|
  {
    if rows != [] {
      var front := rows[..|rows| - 1];
      assert !Contributes(s, user, front, k) by {
        forall i | 0 <= i < |front| ensures !(Joins(s, user, front[i]) && KeyOf(s, front[i]) == k) {
          assert front[i] == rows[i];
        }
      }
      NoContributionSumsZero(s, user, front, k);
    }
  }

  /** Extending the scanned prefix by one row. */
  lemma ScanStep(s: Store, user: UserId, rows: seq<RecipeIngredient>, i: nat, k: (string, string))
    requires i < |rows|
    ensures SumFor(s, user, rows[..i + 1], k) == SumFor(s, user, rows[..i], k) + Contribution(s, user, rows[i], k)
    ensures Contributes(s, user, rows[..i + 1], k)
            <==> Contributes(s, user, rows[..i], k) || (Joins(s, user, rows[i]) && KeyOf(s, rows[i]) == k)
  {
    var longer := rows[..i + 1];
    assert longer[..i] == rows[..i];
    assert longer[i] == rows[i];
    if Contributes(s, user, rows[..i], k) {
      var j :| 0 <= j < i && Joins(s, user, rows[..i][j]) && KeyOf(s, rows[..i][j]) == k;
      assert longer[j] == rows[..i][j];
    }
    if Contributes(s, user, longer, k) && !(Joins(s, user, rows[i]) && KeyOf(s, rows[i]) == k) {
      var j :| 0 <= j < i + 1 && Joins(s, user, longer[j]) && KeyOf(s, longer[j]) == k;
      assert j < i;
      assert rows[..i][j] == longer[j];
    }
  }

  /** A user without cart rows joins no ingredient row. */
  lemma EmptyCartContributesNothing(s: Store, user: UserId, rows: seq<RecipeIngredient>, k: (string, string))
    requires forall e | e in s.shoppingCart :: e.user != user
    ensures !Contributes(s, user, rows, k)
  {
    forall i | 0 <= i < |rows| ensures !Joins(s, user, rows[i]) {
      assert ListEntry(user, rows[i].recipe) !in s.shoppingCart;
    }
  }

  /** Appending a group appends its line to the report. */
  lemma ReportExtends(groups: seq<Group>, g: Group, capitalize: string -> string)
    ensures Report(groups + [g], capitalize) == Report(groups, capitalize) + Line(g, capitalize)
  {
    assert (groups + [g])[..|groups|] == groups;
  }

  /** Appending a group under a new key keeps keys unique and keeps every
      key already present. */
  lemma AppendGroup(groups: seq<Group>, g: Group)
    requires UniqueBy(groups, GroupKey)
    requires forall h | h in groups :: GroupKey(h) != GroupKey(g)
    ensures UniqueBy(groups + [g], GroupKey)
    ensures HasGroup(groups + [g], GroupKey(g))
    ensures forall k | HasGroup(groups, k) :: HasGroup(groups + [g], k)
  {
    var grown := groups + [g];
    forall a, b | 0 <= a < |groups| && 0 <= b < |[g]|
      ensures GroupKey(groups[a]) != GroupKey([g][b])
    {
      assert groups[a] in groups;
    }
    AppendKeepsUniqueBy(groups, [g], GroupKey);
    assert GroupKey(grown[|groups|]) == GroupKey(g);
    forall k | HasGroup(groups, k) ensures HasGroup(grown, k) {
      var j :| 0 <= j < |groups| && GroupKey(groups[j]) == k;
      assert grown[j] == groups[j];
    }
  }

  /** The grouped query: for every (name, unit) group produced by some
      joined row, the summed amount of that group. */
  method TallyCart(s: Store, user: UserId) returns (totals: map<(string, string), int>)
    ensures forall k :: k in totals <==> Contributes(s, user, s.recipeIngredients, k)
    ensures forall k | k in totals :: totals[k] == SumFor(s, user, s.recipeIngredients, k)
  {
    var rows := s.recipeIngredients;
    totals := map[];
    var i := 0;
    while i < |rows|
      invariant 0 <= i <= |rows|
      invariant forall k :: k in totals <==> Contributes(s, user, rows[..i], k)
      invariant forall k | k in totals :: totals[k] == SumFor(s, user, rows[..i], k)
    {
      var row := rows[i];
      forall k ensures SumFor(s, user, rows[..i + 1], k) == SumFor(s, user, rows[..i], k) + Contribution(s, user, row, k)
        && (Contributes(s, user, rows[..i + 1], k)
            <==> Contributes(s, user, rows[..i], k) || (Joins(s, user, row) && KeyOf(s, row) == k))
      {
        ScanStep(s, user, rows, i, k);
      }
      if Joins(s, user, row) {
        var k := KeyOf(s, row);
        var before := if k in totals then totals[k] else 0;
        if k !in totals {
          NoContributionSumsZero(s, user, rows[..i], k);
        }
        totals := totals[k := before + row.amount * CartCount(s, user, row.recipe)];
      }
      i := i + 1;
    }
    assert rows[..i] == rows;
  }

  /** Writes out the groups one by one, in an order left open, and the report
      built from them line by line. */
  method RenderGroups(totals: map<(string, string), int>, capitalize: string -> string)
    returns (groups: seq<Group>, report: string)
    ensures UniqueBy(groups, GroupKey)
    ensures forall g | g in groups :: GroupKey(g) in totals && g.total == totals[GroupKey(g)]
    ensures forall k | k in totals :: HasGroup(groups, k)
    ensures report == Report(groups, capitalize)
  {
    var remaining := totals.Keys;
    groups := [];
    report := Header;
    while remaining != {}
      invariant remaining <= totals.Keys
      invariant forall g | g in groups ::
        GroupKey(g) in totals && GroupKey(g) !in remaining && g.total == totals[GroupKey(g)]
      invariant forall k | k in totals && k !in remaining :: HasGroup(groups, k)
      invariant UniqueBy(groups, GroupKey)
      invariant report == Report(groups, capitalize)
      decreases |remaining|
    {
      var k :| k in remaining;
      var g := Group(k.0, k.1, totals[k]);
      AppendGroup(groups, g);
      ReportExtends(groups, g, capitalize);
      groups := groups + [g];
      report := report + Line(g, capitalize);
      remaining := remaining - {k};
    }
  }

  /** The download: one line per (name, unit) group of the joined rows with
      the summed amount, after the header. */
  method DownloadShoppingCart(s: Store, user: UserId, capitalize: string -> string)
    returns (groups: seq<Group>, report: string)
    ensures UniqueBy(groups, GroupKey)
    ensures forall g | g in groups ::
      Contributes(s, user, s.recipeIngredients, GroupKey(g))
      && g.total == SumFor(s, user, s.recipeIngredients, GroupKey(g))
    ensures forall i | 0 <= i < |s.recipeIngredients| && Joins(s, user, s.recipeIngredients[i]) ::
      HasGroup(groups, KeyOf(s, s.recipeIngredients[i]))
    ensures report == Report(groups, capitalize)
    ensures (forall e | e in s.shoppingCart :: e.user != user) ==> groups == [] && report == Header
  {
    var totals := TallyCart(s, user);
    groups, report := RenderGroups(totals, capitalize);
    var rows := s.recipeIngredients;
    forall i | 0 <= i < |rows| && Joins(s, user, rows[i]) ensures HasGroup(groups, KeyOf(s, rows[i])) {
      assert KeyOf(s, rows[i]) in totals;
    }
    if forall e | e in s.shoppingCart :: e.user != user {
      forall k ensures !Contributes(s, user, rows, k) {
        EmptyCartContributesNothing(s, user, rows, k);
      }
    }
  }

  // ---------------------------------------------------------------------
  // Properties of the totals.

  /** Sum of the amounts of the rows whose recipe is in the user's cart:
      the total the shopping list promises. */
  function CartSum(s: Store, user: UserId, rows: seq<RecipeIngredient>, k: (string, string)): int {
    if rows == [] then 0
    else
      var row := rows[|rows| - 1];
      CartSum(s, user, rows[..|rows| - 1], k)
      + (if row.ingredient in s.ingredients && ListEntry(user, row.recipe) in s.shoppingCart && KeyOf(s, row) == k
         then row.amount else 0)
  }

  /** With the unique (user, recipe) constraint of the cart table the join
      never repeats a row, so each group total is the plain sum of the
      amounts of the user's cart recipes. */
  lemma {:induction false} TotalsAreCartSums(s: Store, user: UserId, rows: seq<RecipeIngredient>, k: (string, string))
    requires Valid(s)
    ensures SumFor(s, user, rows, k) == CartSum(s, user, rows, k)
    decreases |rows|
  {
    if rows != [] {
      var row := rows[|rows| - 1];
      TotalsAreCartSums(s, user, rows[..|rows| - 1], k);
      NoDuplicatesCountsAtMostOne(s.shoppingCart, ListEntry(user, row.recipe));
    }
  }

  /** With amounts of at least one, every group that appears has a positive total. */
  lemma {:induction false} GroupTotalsPositive(s: Store, user: UserId, rows: seq<RecipeIngredient>, k: (string, string))
    requires forall row | row in rows :: row.amount >= 1
    ensures SumFor(s, user, rows, k) >= 0
    ensures Contributes(s, user, rows, k) ==> SumFor(s, user, rows, k) >= 1
    decreases |rows|
  {
    if rows != [] {
      var front := rows[..|rows| - 1];
      var last := rows[|rows| - 1];
      assert forall row | row in front :: row in rows;
      GroupTotalsPositive(s, user, front, k);
      assert Contribution(s, user, last, k) >= 0;
      if Contributes(s, user, rows, k) && !(Joins(s, user, last) && KeyOf(s, last) == k) {
        var i :| 0 <= i < |rows| && Joins(s, user, rows[i]) && KeyOf(s, rows[i]) == k;
        assert i < |front| && front[i] == rows[i];
      }
    }
  }

  /** In a valid store every listed total is at least one. */
  lemma ValidStoreTotalsPositive(s: Store, user: UserId, k: (string, string))
    requires Valid(s)
    requires Contributes(s, user, s.recipeIngredients, k)
    ensures SumFor(s, user, s.recipeIngredients, k) >= 1
  {
    GroupTotalsPositive(s, user, s.recipeIngredients, k);
  }
}
